=== FILE: README.md ===
# flexify-backend core, modelled in Dafny

flexify-backend is the Express server of a workout tracker. Every request
builds a `User` object (user.js) that owns the parsed request body, the
response object and the database handle. The constructor resolves two
promises once: "logged in" (the `X-Token` header names a row of the
`login` table) and "admin" (that user's `is_admin` column is truthy).
Operations validate the body against a fixed table of regexes, consult
those two answers, run SQL and return a value. A route handler in
server_final.js maps that value onto a reply: `false` becomes 400, `0`
becomes an error on login, signup and insert (a 200 elsewhere), a rejected
promise sends nothing, and anything else becomes 200. Replies go
through `respond`, which writes only the first time per request.

This project models that core as pure functions over immutable data:

- **Patterns**: the regex table of `validateFields` as predicates on
  strings. This includes the location regex exactly as written, which
  accepts any string that starts with `web` or ends with `mobile`.
- **Json**: body values, and the `String(v)` coercion a regex is really
  tested against. Also `parseInt`.
- **Fields**: `validateFields`, and the month padding of `workoutDates`.
- **Response**: the write-once sink behind `respond`, `respondSuccess` and
  `respondMissing`.
- **Sessions**: the `user` and `login` tables, `updateToken`, `login` and
  `register`.
- **Auth**: `getUserId`, `getAdmin`, the constructor, `isLoggedIn` and
  `isAdmin`.
- **ResetTokens**: the `login_reset` table. This covers the ten-minute
  purge, `validateResetToken`, `generateResetToken` and `resetPassword`.
- **AdminData**: the admin table browser `getTables`, `getTableData`,
  `updateTableData`, `insertTableData` and `deleteTableData`. Each of them
  checks the fields, then `isAdmin`, then the table allow-list.
- **Muscles**: the muscle-score aggregation of `/api/user/muscles`. Its
  loops are methods, checked against a reference definition.
- **Handlers**: the route handlers for login, signup, muscles, reset and
  admin.

Tables are sequences of rows in store order. Queries a method issues
without awaiting them run one after another, in the order issued. Several
inputs become parameters:

- the bytes of `crypto.randomBytes`;
- the digest `bcrypt.hash` produces, and the answer of `bcrypt.compare`
  (a function parameter);
- the current time, in seconds;
- the muscles `exercises.getMuscles` returns (a function parameter);
- the rows a query returns, where the query's text is not modelled.

Within the SQL the model does keep, some source behaviour is odd but is
modelled as written:

- The location regex accepts more than `web` and `mobile`.
- `resetPassword` does not purge expired tokens first, so an expired token
  still resets the password.
- `login` writes the session slot twice. `Sessions.SignIn` shows that the
  first token leaves no trace.
- An object-valued field is tested as `"[object Object]"`, so it fails
  every patterned field. (An object with its own non-function `toString`
  makes the test throw instead; see "Left out".)
- When an operation fails after `isLoggedIn` has written its 401, the
  handler calls `respondMissing` as well. The two writes happen one after
  the other, and `respond` keeps the 401 (`Response.FirstRespondWins`).

## Model

| member | source | states |
|---|---|---|
| Patterns.PatternOf | user.js:50-65 | exactly the nine field names of the regex table have a pattern; the password rule is commented out, so any password passes |
| Patterns.EmailFromParts | user.js:54 | every address made of a non-empty name-character local part, '@', and two or more dot-separated labels whose last has 2-4 characters passes the email regex |
| Patterns.LoginShapes | user.js:56 | a login value is an email exactly when it holds '@' and a username exactly when it does not |
| Patterns.LocationAcceptsPrefixOrSuffix | user.js:63 | the location regex as written accepts "web", "mobile", "website", "automobile" and "web desktop mobile", and rejects "desktop", "Web" and "" |
| Patterns.HexEncode | user.js:445-447 | the rendering has two lower-case hex characters per byte, the byte's high nibble first, then its low nibble |
| Patterns.HexEncodeInjective | user.js:445-447 | different random bytes render as different tokens |
| Patterns.GeneratedTokenIsHex | user.js:445-447 | a token rendered from at least one random byte always passes the `token` and `reset_token` regex |
| Json.Text | user.js:74 | `String(v)` of a number is plain decimal digits, with a leading '-' exactly when the number is negative |
| Json.ParseInt | user.js:373 | `parseInt` yields a number exactly when, after an optional sign, the string form of the value starts with a decimal digit, or with "0x"/"0X" and a hex digit; the number is negative only after a '-' |
| Json.ParseIntOfNum | user.js:373 | every number a body can carry reads back through `parseInt` unchanged |
| Json.ParseIntDecimal | user.js:373 | decimal digits followed by a non-digit read as the digits' value; the rest is ignored |
| Json.ParseIntHex | user.js:373 | "0x" or "0X" followed by hex digits reads those digits in base 16, up to the first non-hex character |
| Json.HexPageStrings | user.js:373 | "0x1" reads as 1 and "0xff" as 255, while "0x" and "0xg" are NaN |
| Json.SignedPageStrings | user.js:373 | "-3" reads as -3, "+7" as 7, and "-0" as 0 |
| Json.ObjectFailsEveryPattern | user.js:74 | an object value, coerced to "[object Object]", matches none of the regexes |
| Fields.ValidateFields | user.js:49-81 | succeeds exactly when every listed field is present and, when it has a regex, matches it; on success returns exactly the listed fields, each with the body's value |
| Fields.UnpatternedFieldsNeedPresence | user.js:70-73 | fields without a regex only need to be present |
| Fields.MonthKey | user.js:88-90 | the month key has the form YYYY-MM: the year of the date, a dash, and two digits worth the date's month |
| Response.Respond | user.js:451-458 | a reply is written only if none was, `success` is set exactly for status 200, and a written sink never changes |
| Response.FirstRespondWins | user.js:451-458 | however many replies a request attempts, the first one is what the client receives |
| Sessions.UpdateToken | user.js:180-189 | the slot (location, user) afterwards holds exactly one row, carrying the new token; rows of every other slot are unchanged and stay in order |
| Sessions.ResolveToken | user.js:18-24 | a token resolves to a user id exactly when some login row holds it, and the id is that row's user |
| Sessions.IssuedTokenResolves | user.js:180-189 | a freshly issued token resolves to the user it was issued for |
| Sessions.ReissueRevokes | user.js:180-189 | issuing a second token for the same slot revokes the first |
| Sessions.FindByName | user.js:147-149 | the user lookup finds a row whose username or email equals the value's text, and finds nothing when no row does or the value is not text or a number |
| Sessions.Login | user.js:143-162 | false exactly on invalid fields; 0 for an unknown user or a wrong password; otherwise the token now held in the user's slot, with other slots untouched |
| Sessions.SignIn | user.js:155-161 | the inline delete and insert with the first token leave no trace: the session table and the token are what one `updateToken` with the second token produces |
| Sessions.Register | user.js:164-178 | false on invalid fields; 0 exactly when an existing username or email holds exactly the text of the given username or email; otherwise a rejection when the password is not text (bcrypt refuses it, user.js:439-441); otherwise one new user row with the store's fresh id and the digest, and a first session in the given location; on any outcome but success both tables are unchanged |
| Sessions.LoginSucceeds | user.js:143-162 | a valid login body naming a known user with an accepted password gets exactly the session one `updateToken` for that user and location issues |
| Sessions.RegisteredUserCanLogIn | user.js:143-178 | after a successful registration, logging in with the same username, password and location succeeds, and a fresh token from it resolves to the new user |
| Auth.GetUserId | user.js:18-25 | a request is logged in exactly when it has a non-empty `X-Token` that some login row holds, and then it gets that row's user |
| Auth.GetAdmin | user.js:33-38 | admin only for a logged-in user whose row has a truthy `is_admin`, and always when every row of that id does |
| Auth.NewRequest | user.js:7-16 | a new request has written nothing, and admin implies logged in |
| Auth.IsLoggedIn | user.js:26-31 | true exactly when logged in; otherwise a 401 "Invalid token" is written, unless a reply was already written |
| Auth.IsAdmin | user.js:39-47 | true exactly when logged in and admin, leaving the sink untouched; otherwise a 401 is written |
| Auth.AnonymousAdminSeesInvalidToken | user.js:39-43 | an anonymous caller of an admin operation sees 401 "Invalid token", not "Unauthorized" |
| Auth.NonAdminSeesUnauthorized | user.js:39-43 | a logged-in non-admin sees 401 "Unauthorized" |
| Auth.AdminNeedsSessionAndFlag | user.js:18-47 | admin access needs a login row holding the header's token whose user row is flagged admin |
| ResetTokens.PurgeExpired | user.js:306-309 | keeps exactly the rows created no more than ten minutes ago |
| ResetTokens.PurgeKeepsOrder | user.js:306-309 | the purge goes row by row, so the surviving rows keep their table order and multiplicity |
| ResetTokens.FindToken | user.js:347-352 | finds a reset row holding the token exactly when one exists, and it is the first such row in table order |
| ResetTokens.RemoveToken | user.js:354 | removes exactly the rows holding the token |
| ResetTokens.RemoveKeepsOrder | user.js:354 | the delete goes row by row, so the remaining rows keep their table order and multiplicity |
| ResetTokens.ValidateResetToken | user.js:311-321 | invalid fields leave the table alone; otherwise expired rows are purged, and the answer is true exactly when a live row holds the token's text |
| ResetTokens.GenerateResetToken | user.js:323-341 | true exactly for a known user; then expired rows are purged and one row with the new token and the current time is appended, and the notice carries that token |
| ResetTokens.ResetPassword | user.js:343-357 | false exactly when the fields are invalid or no row holds the token; true exactly when, in addition, the password is text, and then the owner's password becomes the digest, every other user is unchanged, and the token's rows are deleted; a non-text password rejects, since bcrypt refuses it; on anything but true nothing changes |
| ResetTokens.ValidWithinTenMinutes | user.js:306-321 | a token created at time t validates exactly while now <= t + 600, and after that no row holds it |
| ResetTokens.ExpiredTokenStillRedeemed | user.js:343-357 | a token whose rows have all expired fails validation but still resets the password |
| ResetTokens.IssuedRow | user.js:323-341 | a successful generation appends a row holding the rendered token, created now |
| ResetTokens.IssuedTokenValidates | user.js:311-321 | a rendered token held by a row validates until ten minutes after that row was created |
| AdminData.AdminGate | user.js:367-370 | admin operations pass exactly with valid fields, an admin session and an allow-listed table name; bad fields skip `isAdmin` and write nothing |
| AdminData.GetTables | user.js:361-365 | the allow-list, for an admin only |
| AdminData.Page | user.js:373 | a page holds at most ten rows, the consecutive rows from page * 10 on, and is full unless the table ends |
| AdminData.PageHoldsRow | user.js:373 | row k of a table is entry k mod 10 of page k div 10 |
| AdminData.PageNumber | user.js:373 | a page is accepted exactly when `parseInt` reads a non-negative number whose offset (ten times it) is at most 2^64 - 1, MySQL's largest `OFFSET`, and the page is that number |
| AdminData.DigitPageBound | user.js:373 | a page of decimal digits is accepted exactly when ten times its value is at most 2^64 - 1, MySQL's largest `OFFSET`, and is then that value |
| AdminData.PageNumberExamples | user.js:373 | "0x1" and "1e3" are page 1 and "-0" is page 0, while "0x", "-3" and the number -2 give an offset MySQL refuses |
| AdminData.ShowPage | user.js:373-385 | the reply lists the values of the page's rows in table order, at most ten, full unless the table ends; headers are the first row's columns, or the fallback for an empty page |
| AdminData.GetTableData | user.js:367-386 | data only for an admin and an allow-listed table; the page rows' values in order; headers are the first row's columns, or for an empty page the stored column list (absent for a table without one); a page that `parseInt` cannot read, a negative page, or one whose offset exceeds 2^64 - 1 rejects |
| AdminData.EntriesOf | user.js:394 | `Object.entries` gives an object's entries, a string's characters keyed by index, nothing for a number, and throws for null |
| AdminData.UpdateTableData | user.js:388-402 | an update of row `id` is sent only past the gate and with a digit id; the result is 1 exactly for the `exercise` table |
| AdminData.InsertTableData | user.js:404-424 | an insert is sent only past the gate; 0 exactly when the query throws before it is sent; 1 exactly for `exercise` |
| AdminData.DeleteTableData | user.js:426-437 | a delete of row `id` is sent only past the gate; 1 exactly for `exercise` |
| AdminData.WritesFailClosed | user.js:367-437 | a table name outside the allow-list, or a caller without an admin session, never reaches the database |
| AdminData.InvalidFieldsSkipAuthorization | user.js:388-391 | invalid fields give false with the request untouched and no statement |
| Muscles.Regroup | server_final.js:145-160 | summing per distinct exercise, each weighted by how often it was done, equals summing over every entry |
| Muscles.LoadedIffListed | server_final.js:153-159 | a muscle gets positive load exactly when some exercise done lists it |
| Muscles.Round | server_final.js:163 | `Math.round` gives the nearest integer, rounding ties up |
| Muscles.Score | server_final.js:161-164 | the score is 3 exactly when the load is at least half the entries, at least 2 exactly when it is at least a sixth, and always between 1 and 3 |
| Muscles.ScoreMonotone | server_final.js:163 | more load never lowers a score |
| Muscles.MuscleScores | server_final.js:142-164 | there is one score, between 1 and 3, exactly for each muscle some exercise done lists |
| Muscles.CountEntries | server_final.js:145-151 | the count object has one key per exercise done, holding how often it occurs |
| Muscles.AddLoad | server_final.js:155-158 | every listed muscle gains the exercise's count once per listing, starting at 0 |
| Muscles.SpreadLoad | server_final.js:153-159 | each muscle's sum is the count of every exercise listing it, weighted by the number of listings |
| Muscles.SumCounts | server_final.js:160 | the total is the sum of the counts |
| Muscles.AggregateMuscles | server_final.js:142-164 | the handler's loops give the reference scores, the per-exercise counts, and a total equal to the number of entries |
| Muscles.WorkedThroughoutScoresThree | server_final.js:160-164 | a muscle every exercise done works scores 3 |
| Muscles.WorkedExample | server_final.js:142-164 | for workouts [1, 1] and [2], where 1 works the chest and 2 the chest and triceps, the scores are chest 3 and triceps 2 |
| Handlers.Outcome | server_final.js:95-325 | false is a 400 "Missing or invalid POST field(s)"; 0 is an error only on login, signup and insert; a rejected operation attempts no reply; everything else is a 200 with the operation's payload |
| Handlers.Finish | server_final.js:266-298 | the exercise cache is rebuilt exactly when an admin write returns 1; an earlier reply is never overwritten; `success` stays tied to status 200 |
| Handlers.HandleLogin | server_final.js:95-103 | 200 with the token exactly when login succeeds; 400 "Invalid username or password" for 0; 400 for bad fields |
| Handlers.HandleSignup | server_final.js:105-113 | 200 with the token exactly when registration succeeds; 400 "Already exists" for 0; 400 for bad fields; no reply exactly when registration rejects |
| Handlers.HandleMuscles | server_final.js:136-167 | 400 on a bad timespan; the 401 "Invalid token" for an anonymous caller; otherwise 200 with the reference muscle scores |
| Handlers.HandleResetGenerate | server_final.js:300-307 | 200 exactly when a token was generated, and the notice goes out only then |
| Handlers.HandleResetValidate | server_final.js:309-316 | 200 exactly when the fields are valid and a live row holds the token, else 400 |
| Handlers.HandleReset | server_final.js:318-325 | 200 exactly when the password was reset; no reply exactly when the reset rejects; otherwise both tables are unchanged |
| Handlers.HandleAdminTables | server_final.js:248-255 | 200 with the allow-list exactly for an admin; 401 "Invalid token" when anonymous; 401 "Unauthorized" for a non-admin |
| Handlers.HandleAdminData | server_final.js:257-264 | 200 with the page exactly when the data operation produced one; no reply when it rejected |
| Handlers.HandleAdminUpdate | server_final.js:266-275 | a statement is sent only with a 200; false gives an error reply; the cache is rebuilt exactly on 1 |
| Handlers.HandleAdminDelete | server_final.js:277-286 | 200 exactly when a delete is sent; the cache is rebuilt exactly on 1 |
| Handlers.HandleAdminInsert | server_final.js:288-298 | a 500 "SQL error" when the query throws, a 200 when an insert is sent, and no reply on a rejection |
| Handlers.AdminWritesNeedAdmin | server_final.js:266-275 | with valid fields but no admin session, an update sends nothing and answers with the 401 of `isAdmin` |
| Handlers.UnlistedTableIs400 | server_final.js:277-286 | an admin naming a table outside the allow-list gets the 400 for bad fields, and nothing is deleted |
| Handlers.RebuildOnlyForExercise | server_final.js:266-298 | the exercise cache is rebuilt only after a statement on the `exercise` table was sent |

## Left out

- Express wiring, CORS, static files and the catch-all route are left out. They only dispatch to the modelled handlers.
- The remaining `User` operations and their handlers are left out: diet, templates, workouts, `userDetails` and `getExercises`. Each of them first calls `isLoggedIn` (`Auth.IsLoggedIn`), most after `validateFields` (`Fields.ValidateFields`), so their gates are the ones modelled here. Beyond those gates they only run SQL and reshape the rows.
- `workoutDates` is modelled only for its month padding (`Fields.MonthKey`). Its query is plain SQL.
- bcrypt and crypto are parameters: a digest string (for a text password; any other password makes `bcrypt.hash` reject, modelled as `Sessions.Hashable`), a `verify` function, and the random bytes (32 for a session token, 16 for a reset token). Their algorithms are outside this model. db.js and exercises.js are not part of this model.
- The AUTO_INCREMENT id `insertId` of a new user is a parameter of `Sessions.Register`, required to differ from every existing id.
- `sendRequest` and the `email_token` hash of `generateResetToken` are left out. They are network I/O with no effect on the returned value. The notice keeps the username, email and token.
- SQL text is not rendered. (Table names are interpolated only after the allow-list check, so they cannot inject.) Admin writes are returned as `Command`s. So neither the injection through the unescaped keys and values of `values`, nor the SQL error from an empty `values` object, is modelled.
- Non-awaited queries are treated as run in issue order. Concurrent interleavings with other requests are not modelled.
- Floating point is left out. `Muscles.Score` uses exact rationals, so an IEEE rounding at an exact tie of `raw / total * 3 + 1` may differ.
- Object key order is left out. `Object.keys` lists integer-like keys first, in ascending order, while `Muscles.CountEntries` keeps first-seen order. The scores do not depend on the order (`Muscles.RawIsLoad` holds for any listing of the ids). `AdminData.EntriesOf` keeps object entries in body order.
- AdminData.EntriesOf: a string's entries are indexed by Dafny characters. `Object.entries` indexes UTF-16 code units, so a character outside the Basic Multilingual Plane gives two entries there and one here.
- JSON arrays, booleans and fractional numbers are not values of this model.
- Json.ParseInt: leading whitespace is not modelled. `parseInt` skips it, but the model finds no number, so such a page rejects. The model also reads hex and long digit runs exactly, while `parseInt` rounds any result above 2^53 to a double. So the 2^64 - 1 offset bound of `AdminData.PageNumber` can differ by that rounding: an offset just below the bound may round up past it.
- Json.Text: numbers are integers of at most 2^53 - 1 in magnitude (`Json.SafeInt`). Larger numbers arrive rounded from `JSON.parse`, and from 1e21 on `String` prints them in exponent form. Neither is modelled. An object whose own `toString` key is not a function makes `String(v)` throw inside the regex test. The source then sends no reply, while the model tests it as "[object Object]" and answers 400.
- Sessions.FindByName: does not promise the FIRST matching row. It promises a matching row. It also compares the text `String(v)` exactly. MySQL compares a numeric parameter with a text column numerically, reading only each name's leading number. So `0` matches every name whose leading number is 0, including every name that starts with a letter. The column collation may also fold case. Neither is modelled.
- ResetTokens.ValidateResetToken: the token lookup compares `String(v)` exactly. MySQL compares a numeric `token` such as `0` numerically, and so matches every stored token whose leading digits read as 0, including every one that starts with a letter. The model answers false there.
- ResetTokens.ResetPassword: the same exact-text comparison. With a numeric `token` the source's `SELECT` and `DELETE` match those tokens, so it resets that owner's password and deletes those rows, while the model answers false and changes nothing. `ResetTokens.GenerateResetToken` finds its user through `Sessions.FindByName` and has the same gap.
- Sessions.Register: the new row's `is_admin` is 0. The `INSERT` does not set that column, so 0 is its assumed default; the schema is not part of this model. The duplicate check compares the texts `String(v)` exactly. MySQL compares a numeric username such as `12345` numerically, so an existing "12345abc" or "012345" counts as taken. The column collation may also make "Alice1" and "alice1" collide. In those cases the source answers 0 (400 "Already exists"), while the model registers a second user.
- Auth.GetAdmin: a session whose user row is missing reads as not admin. In the source, `result.is_admin` on the result of `query(..., true)` throws. The login table's foreign key makes that case unreachable.
- Auth.IsAdmin: the `db.initStructure()` refresh on success is left out. The schema is a parameter of the admin operations.
- A JSON body that fails to parse, and a `workout.json` column that fails `JSON.parse`, are left out. Express and the driver handle these.
- `log` calls are left out. They have no effect on replies or tables.

=== FILE: admin.dfy ===
/**
 The admin table browser of `User` (user.js:360-437): every operation
 validates its fields, then asks `isAdmin`, then checks the table name
 against the allow-list `db.tables` before it touches any table. The
 statements the operations send to the database are returned as
 `Command`s; the SQL text they are rendered into is not modelled.
 */
module AdminData {

  import opened Common
  import opened Patterns
  import opened Json
  import opened Fields
  import opened Response
  import opened Auth

  /** `db.tables` (the allow-list) and `db.structure` (column names per
      table), as `db.initStructure` left them. */
  datatype Schema = Schema(tables: seq<string>, structure: map<string, seq<string>>)

  /** A result row as the driver returns it: column names with values, in column order. */
  type Row = seq<(string, Value)>

  /** The contents of every table, in the order `SELECT *` returns them. */
  type Store = map<string, seq<Row>>

  /** A statement an admin operation sends and does not await. */
  datatype Command =
    | Update(table: string, entries: seq<(string, Value)>, id: Value)
    | Insert(table: string, entries: seq<(string, Value)>)
    | Delete(table: string, id: Value)

  /** `LIMIT 10` */
  const PageSize: nat := 10

  const DataFields: seq<string> := ["table", "page"]
  const UpdateFields: seq<string> := ["table", "id", "values"]
  const InsertFields: seq<string> := ["table", "values"]
  const DeleteFields: seq<string> := ["table", "id"]

  /** `db.tables.includes(post.table)`: strict equality, so only a string
      value that names an allow-listed table passes. */
  predicate AllowListed(schema: Schema, table: Value)
  {
    table.Str? && table.s in schema.tables
  }

  /** The guard every admin operation starts with: the listed fields, then
      `isAdmin`, then the allow-list. On success it yields the table name
      and the validated fields. A field failure does not consult `isAdmin`
      and writes nothing; an `isAdmin` failure leaves its 401 behind. */
  function AdminGate(req: Request, schema: Schema, fields: seq<string>): (r: (Option<(string, map<string, Value>)>, Request))
    requires "table" in fields
    ensures r.0.Some? <==>
      && ValidateFields(req.body, fields).Some?
      && req.userId.Some? && req.admin
      && AllowListed(schema, req.body["table"])
    ensures ValidateFields(req.body, fields).None? ==> r.1 == req
    ensures ValidateFields(req.body, fields).Some? ==> r.1 == IsAdmin(req).1
    ensures r.0.Some? ==>
      && r.0.value.0 == req.body["table"].s
      && r.0.value.0 in schema.tables
      && r.0.value.1 == ValidateFields(req.body, fields).value
      && r.1 == req
  {
    match ValidateFields(req.body, fields)
    case None => (None, req)
    case Some(post) =>
      var (admin, after) := IsAdmin(req);
      assert "table" in post;
      if !admin || !AllowListed(schema, post["table"]) then (None, after)
      else (Some((post["table"].s, post)), after)
  }

  /** `getTables()`: the allow-list, for an admin only. */
  function GetTables(req: Request, schema: Schema): (r: (Ret, Request))
    ensures r.0 == (if req.userId.Some? && req.admin then TablesRet(schema.tables) else False)
    ensures r.1 == IsAdmin(req).1
  {
    var (admin, after) := IsAdmin(req);
    if admin then (TablesRet(schema.tables), after) else (False, after)
  }

  /** The rows of a table; a table the store does not hold reads as empty. */
  function TableRows(store: Store, table: string): seq<Row>
  {
    if table in store then store[table] else []
  }

  /** `LIMIT 10 OFFSET page * 10` */
  function Page(rows: seq<Row>, page: nat): (r: seq<Row>)
    ensures |r| <= PageSize
    ensures |r| == if page * PageSize >= |rows| then 0 else Min(PageSize, |rows| - page * PageSize)
    ensures forall i :: 0 <= i < |r| ==> r[i] == rows[page * PageSize + i]
  {
    var start := page * PageSize;
    if start >= |rows| then []
    else rows[start..Min(start + PageSize, |rows|)]
  }

  function Min(a: int, b: int): int { if a <= b then a else b }

  /** `Object.keys(row)` */
  function Columns(row: Row): (r: seq<string>)
    ensures |r| == |row| && forall i :: 0 <= i < |row| ==> r[i] == row[i].0
  {
    seq(|row|, i requires 0 <= i < |row| => row[i].0)
  }

  /** `Object.values(row)` */
  function Values(row: Row): (r: seq<Value>)
    ensures |r| == |row| && forall i :: 0 <= i < |row| ==> r[i] == row[i].1
  {
    seq(|row|, i requires 0 <= i < |row| => row[i].1)
  }

  /** The largest `OFFSET` MySQL parses: an unsigned 64-bit integer. A
      longer literal is a decimal, which the grammar refuses there. */
  const MaxOffset: nat := 0xFFFF_FFFF_FFFF_FFFF

  /** The page whose `OFFSET ${parseInt(page) * 10}` MySQL accepts: the
      offset must be an integer literal of at most 2^64 - 1, so NaN ("NaN"),
      a negative number ("-10") and a larger offset all make the query fail.
      (`String` prints an exponent only from 1e21 on, far above that bound.)
      `-0` prints as "0" and is page 0. */
  function PageNumber(v: Value): (r: Option<nat>)
    ensures r.Some? <==> ParseInt(v).Some? && ParseInt(v).value >= 0 && ParseInt(v).value * PageSize <= MaxOffset
    ensures r.Some? ==> r.value == ParseInt(v).value
  {
    match ParseInt(v)
    case None => None
    case Some(page) => if page < 0 || page * PageSize > MaxOffset then None else Some(page)
  }

  /** A page of decimal digits is accepted exactly when its offset fits
      MySQL's unsigned 64-bit bound, and is then the digits' value. */
  lemma {:induction false} DigitPageBound(digits: string)
    requires IsDigits(digits)
    ensures PageNumber(Str(digits)).Some? <==> ParseDigits(digits) * PageSize <= MaxOffset
    ensures PageNumber(Str(digits)).Some? ==> PageNumber(Str(digits)).value == ParseDigits(digits)
  {
    assert !HexPrefixed(digits + "") by {
      assert digits + "" == digits;
      if |digits| >= 2 { assert IsDigit(digits[1]); }
    }
    ParseIntDecimal(digits, "");
    assert digits + "" == digits;
  }

  /** Pages as the template renders them: "0x1" is page 1, "1e3" page 1,
      "-0" page 0; "0x" and "-3" make the query fail. */
  lemma {:induction false} PageNumberExamples()
    ensures PageNumber(Str("0x1")) == Some(1) && PageNumber(Str("1e3")) == Some(1)
    ensures PageNumber(Str("-0")) == Some(0)
    ensures PageNumber(Str("0x")) == None && PageNumber(Str("-3")) == None
    ensures PageNumber(Num(7)) == Some(7) && PageNumber(Num(-2)) == None
  {
    HexPageStrings();
    DecimalPageStrings();
    SignedPageStrings();
    ParseIntOfNum(7);
    ParseIntOfNum(-2);
  }

  /** `getTableData()`: after the guard, page `parseInt(page)` of the table.
      An empty page reports the stored column list as headers (undefined,
      and so absent from the reply, for a table without one); otherwise the
      headers are the first row's column names and the body holds every
      row's values. A `page` whose `OFFSET` MySQL refuses makes the awaited
      query reject. */
  function GetTableData(req: Request, schema: Schema, store: Store): (r: (Ret, Request))
    ensures r.0.False? || r.0.DataRet? || r.0.Rejected?
    ensures r.0.False? <==> AdminGate(req, schema, DataFields).0.None?
    ensures r.1 == AdminGate(req, schema, DataFields).1
    ensures r.0.Rejected? <==> AdminGate(req, schema, DataFields).0.Some? && PageNumber(req.body["page"]).None?
    ensures r.0.DataRet? ==>
      var table := req.body["table"].s;
      var rows := TableRows(store, table);
      var start := PageNumber(req.body["page"]).value * PageSize;
      && req.userId.Some? && req.admin && table in schema.tables
      && |r.0.rows| <= PageSize
      && (|r.0.rows| == 0 <==> start >= |rows|)
      && (forall i :: 0 <= i < |r.0.rows| ==> start + i < |rows| && r.0.rows[i] == Values(rows[start + i]))
      && (start + |r.0.rows| < |rows| ==> |r.0.rows| == PageSize)
      && (|r.0.rows| == 0 ==> r.0.headers == if table in schema.structure then Some(schema.structure[table]) else None)
      && (|r.0.rows| > 0 ==> r.0.headers == Some(Columns(rows[start])))
  {
    match AdminGate(req, schema, DataFields)
    case (None, after) => (False, after)
    case (Some((table, post)), after) =>
      ValidatedField(req.body, DataFields, 1);
      match PageNumber(post["page"])
      case None => (Rejected, after)
      case Some(page) =>
        (ShowPage(TableRows(store, table), page, if table in schema.structure then Some(schema.structure[table]) else None), after)
  }

  /** The reply for one page of `rows`: the first row's column names (or
      the `empty` headers when the page is empty) and every row's values. */
  function ShowPage(rows: seq<Row>, page: nat, empty: Option<seq<string>>): (r: Ret)
    ensures r.DataRet?
    ensures var start := page * PageSize;
      && |r.rows| <= PageSize
      && (|r.rows| == 0 <==> start >= |rows|)
      && (forall i :: 0 <= i < |r.rows| ==> start + i < |rows| && r.rows[i] == Values(rows[start + i]))
      && (start + |r.rows| < |rows| ==> |r.rows| == PageSize)
      && (|r.rows| == 0 ==> r.headers == empty)
      && (|r.rows| > 0 ==> r.headers == Some(Columns(rows[start])))
  {
    var result := Page(rows, page);
    if |result| == 0 then DataRet(empty, [])
    else DataRet(Some(Columns(result[0])), seq(|result|, i requires 0 <= i < |result| => Values(result[i])))
  }

  /** Every row of a table is shown exactly once: row `k` is entry `k % 10`
      of page `k / 10`. */
  lemma {:induction false} PageHoldsRow(rows: seq<Row>, k: nat)
    requires k < |rows|
    ensures k % PageSize < |Page(rows, k / PageSize)|
    ensures Page(rows, k / PageSize)[k % PageSize] == rows[k]
  {
    var page := k / PageSize;
    assert page * PageSize + k % PageSize == k;
  }

  /** `Object.entries(values)`: an object's own entries; a string's
      characters keyed by their index; nothing for a number; `null`
      throws. Key order of integer-like object keys is not modelled. */
  function EntriesOf(v: Value): (r: Option<seq<(string, Value)>>)
    ensures r.None? <==> v.Null?
    ensures v.Obj? ==> r == Some(v.entries)
    ensures v.Num? ==> r == Some([])
    ensures v.Str? ==>
      && |r.value| == |v.s|
      && forall i :: 0 <= i < |v.s| ==> IsDigits(r.value[i].0) && ParseDigits(r.value[i].0) == i && r.value[i].1 == Str([v.s[i]])
  {
    match v
    case Obj(entries) => Some(entries)
    case Str(s) =>
      assert forall i: nat :: ParseDigits(NatToString(i)) == i by {
        forall i: nat ensures ParseDigits(NatToString(i)) == i { ParseNatToString(i); }
      }
      Some(seq(|s|, i requires 0 <= i < |s| => (NatToString(i), Str([s[i]]))))
    case Num(_) => Some([])
    case Null => None
  }

  /** `updateTableData()`: after the guard, sends an update of row `id` with
      the entries of `values`; 1 for the `exercise` table (the handler then
      rebuilds its exercise cache), true otherwise. */
  function UpdateTableData(req: Request, schema: Schema): (r: (Ret, Request, Option<Command>))
    ensures r.0.False? || r.0.One? || r.0.True? || r.0.Rejected?
    ensures r.0.False? <==> AdminGate(req, schema, UpdateFields).0.None?
    ensures r.1 == AdminGate(req, schema, UpdateFields).1
    ensures r.0.Rejected? <==> AdminGate(req, schema, UpdateFields).0.Some? && req.body["values"].Null?
    ensures r.2.Some? <==> r.0.One? || r.0.True?
    ensures r.2.Some? ==>
      && req.userId.Some? && req.admin
      && IsDigits(Text(req.body["id"]))
      && r.2.value == Update(req.body["table"].s, EntriesOf(req.body["values"]).value, req.body["id"])
      && r.2.value.table in schema.tables
      && (r.0.One? <==> r.2.value.table == "exercise")
  {
    match AdminGate(req, schema, UpdateFields)
    case (None, after) => (False, after, None)
    case (Some((table, post)), after) =>
      ValidatedField(req.body, UpdateFields, 1);
      ValidatedField(req.body, UpdateFields, 2);
      match EntriesOf(post["values"])
      case None => (Rejected, after, None)
      case Some(entries) =>
        (if table == "exercise" then One else True, after, Some(Update(table, entries, post["id"])))
  }

  /** `insertTableData()`: after the guard, sends an insert of the entries
      of `values`. Only a query that throws before it is sent (`throws`)
      reaches the `catch` and yields 0; a failure of the statement itself is
      not awaited and goes unnoticed. */
  function InsertTableData(req: Request, schema: Schema, throws: bool): (r: (Ret, Request, Option<Command>))
    ensures r.0.False? || r.0.Zero? || r.0.One? || r.0.True? || r.0.Rejected?
    ensures r.0.False? <==> AdminGate(req, schema, InsertFields).0.None?
    ensures r.1 == AdminGate(req, schema, InsertFields).1
    ensures r.0.Rejected? <==> AdminGate(req, schema, InsertFields).0.Some? && req.body["values"].Null?
    ensures r.0.Zero? <==> AdminGate(req, schema, InsertFields).0.Some? && !req.body["values"].Null? && throws
    ensures r.2.Some? <==> r.0.One? || r.0.True?
    ensures r.2.Some? ==>
      && req.userId.Some? && req.admin
      && r.2.value == Insert(req.body["table"].s, EntriesOf(req.body["values"]).value)
      && r.2.value.table in schema.tables
      && (r.0.One? <==> r.2.value.table == "exercise")
  {
    match AdminGate(req, schema, InsertFields)
    case (None, after) => (False, after, None)
    case (Some((table, post)), after) =>
      ValidatedField(req.body, InsertFields, 1);
      match EntriesOf(post["values"])
      case None => (Rejected, after, None)
      case Some(entries) =>
        if throws then (Zero, after, None)
        else (if table == "exercise" then One else True, after, Some(Insert(table, entries)))
  }

  /** `deleteTableData()`: after the guard, sends a delete of row `id`. */
  function DeleteTableData(req: Request, schema: Schema): (r: (Ret, Request, Option<Command>))
    ensures r.0.False? || r.0.One? || r.0.True?
    ensures r.0.False? <==> AdminGate(req, schema, DeleteFields).0.None?
    ensures r.1 == AdminGate(req, schema, DeleteFields).1
    ensures r.2.Some? <==> !r.0.False?
    ensures r.2.Some? ==>
      && req.userId.Some? && req.admin
      && IsDigits(Text(req.body["id"]))
      && r.2.value == Delete(req.body["table"].s, req.body["id"])
      && r.2.value.table in schema.tables
      && (r.0.One? <==> r.2.value.table == "exercise")
  {
    match AdminGate(req, schema, DeleteFields)
    case (None, after) => (False, after, None)
    case (Some((table, post)), after) =>
      ValidatedField(req.body, DeleteFields, 1);
      (if table == "exercise" then One else True, after, Some(Delete(table, post["id"])))
  }

  /** A table name outside the allow-list never reaches the database, and
      neither does any request without an admin session. */
  lemma {:induction false} WritesFailClosed(req: Request, schema: Schema, throws: bool)
    requires !AllowListed(schema, if "table" in req.body then req.body["table"] else Null) || req.userId.None? || !req.admin
    ensures UpdateTableData(req, schema).0.False? && UpdateTableData(req, schema).2.None?
    ensures InsertTableData(req, schema, throws).0.False? && InsertTableData(req, schema, throws).2.None?
    ensures DeleteTableData(req, schema).0.False? && DeleteTableData(req, schema).2.None?
    ensures GetTableData(req, schema, map[]).0.False?
  {
  }

  /** An admin request whose fields fail validation is answered without the
      401 path: the sink is untouched, so the handler's 400 is what the
      client sees. */
  lemma {:induction false} InvalidFieldsSkipAuthorization(req: Request, schema: Schema)
    requires ValidateFields(req.body, UpdateFields).None?
    ensures UpdateTableData(req, schema) == (False, req, None)
  {
  }
}

=== FILE: auth.dfy ===
/**
 The request-scoped authorization gate of `User` (user.js:7-47): the
 constructor resolves "logged in" and "admin" once, `isLoggedIn` writes
 401 "Invalid token" itself, and `isAdmin` adds 401 "Unauthorized" behind
 it, which the write-once sink drops when the first 401 is already there.
 */
module Auth {

  import opened Common
  import opened Json
  import opened Response
  import opened Sessions

  /** The state of one `User` instance: the parsed body, the memoized
      answers of `getUserId` (as the resolved `this.id`) and `getAdmin`,
      and the response sink. */
  datatype Request = Request(body: Body, userId: Option<nat>, admin: bool, sink: Sink)

  /** `getUserId()`: no `X-Token` header, or an empty one, is anonymous
      without a query; otherwise the first login row holding the token. */
  function GetUserId(xToken: Option<string>, logins: seq<LoginRow>): (r: Option<nat>)
    ensures r.Some? <==> xToken.Some? && xToken.value != "" && exists i :: 0 <= i < |logins| && logins[i].token == xToken.value
    ensures r.Some? ==> exists i :: 0 <= i < |logins| && logins[i].token == xToken.value && logins[i].userId == r.value
  {
    if xToken.None? || xToken.value == "" then None else ResolveToken(logins, xToken.value)
  }

  /** `getAdmin()`: false for an anonymous request; otherwise the truthiness
      of `is_admin` on the user row of the resolved id (a missing row reads
      as not admin). */
  function GetAdmin(userId: Option<nat>, users: seq<UserRow>): (r: bool)
    ensures r ==> userId.Some? && exists i :: 0 <= i < |users| && users[i].id == userId.value && users[i].isAdmin != 0
    ensures (&& userId.Some?
             && (exists i :: 0 <= i < |users| && users[i].id == userId.value)
             && (forall i :: 0 <= i < |users| && users[i].id == userId.value ==> users[i].isAdmin != 0)) ==> r
  {
    match userId
    case None => false
    case Some(id) =>
      var row := FindById(users, id);
      row.Some? && row.value.isAdmin != 0
  }

  /** The constructor: both answers are computed once, before any handler
      code, and nothing has been written yet. */
  function NewRequest(body: Body, xToken: Option<string>, logins: seq<LoginRow>, users: seq<UserRow>): (r: Request)
    ensures r.body == body && !r.sink.AlreadyResponded()
    ensures r.admin ==> r.userId.Some?
    ensures r.userId.Some? <==> xToken.Some? && xToken.value != "" && exists i :: 0 <= i < |logins| && logins[i].token == xToken.value
  {
    var id := GetUserId(xToken, logins);
    Request(body, id, GetAdmin(id, users), FreshSink)
  }

  /** `isLoggedIn()` */
  function IsLoggedIn(req: Request): (r: (bool, Request))
    ensures r.0 <==> req.userId.Some?
    ensures r.1.body == req.body && r.1.userId == req.userId && r.1.admin == req.admin
    ensures r.0 ==> r.1.sink == req.sink
    ensures !r.0 ==> r.1.sink.AlreadyResponded()
    ensures !r.0 && !req.sink.AlreadyResponded() ==> r.1.sink.written == Some(Reply(401, false, Some(InvalidToken), NoData))
  {
    if req.userId.Some? then (true, req)
    else (false, req.(sink := Respond(req.sink, 401, Some(InvalidToken), NoData)))
  }

  /** `isAdmin()`: on success the request is unchanged (the schema refresh of
      `db.initStructure` is outside this model). */
  function IsAdmin(req: Request): (r: (bool, Request))
    ensures r.0 <==> req.userId.Some? && req.admin
    ensures r.1.body == req.body && r.1.userId == req.userId && r.1.admin == req.admin
    ensures r.0 ==> r.1.sink == req.sink
    ensures !r.0 ==> r.1.sink.AlreadyResponded()
    ensures req.sink.AlreadyResponded() ==> r.1.sink == req.sink
  {
    var (loggedIn, after) := IsLoggedIn(req);
    if !loggedIn || !after.admin then (false, after.(sink := Respond(after.sink, 401, Some(Unauthorized), NoData)))
    else (true, after)
  }

  /** An anonymous caller of `isAdmin` sees the 401 "Invalid token" that
      `isLoggedIn` wrote; the "Unauthorized" reply is dropped. */
  lemma {:induction false} AnonymousAdminSeesInvalidToken(req: Request)
    requires req.userId.None? && !req.sink.AlreadyResponded()
    ensures IsAdmin(req).1.sink.written == Some(Reply(401, false, Some(InvalidToken), NoData))
  {
  }

  /** A logged-in caller without admin rights gets 401 "Unauthorized". */
  lemma {:induction false} NonAdminSeesUnauthorized(req: Request)
    requires req.userId.Some? && !req.admin && !req.sink.AlreadyResponded()
    ensures IsAdmin(req).1.sink.written == Some(Reply(401, false, Some(Unauthorized), NoData))
  {
  }

  /** No request built from a header grants admin without a session row
      holding its token whose user row is flagged admin. */
  lemma {:induction false} AdminNeedsSessionAndFlag(body: Body, xToken: Option<string>, logins: seq<LoginRow>, users: seq<UserRow>)
    ensures var req := NewRequest(body, xToken, logins, users);
            IsAdmin(req).0 ==>
              && xToken.Some?
              && exists i, j :: 0 <= i < |logins| && 0 <= j < |users| && logins[i].token == xToken.value
                                 && logins[i].userId == users[j].id && users[j].isAdmin != 0
  {
    var req := NewRequest(body, xToken, logins, users);
    if IsAdmin(req).0 {
      var id := req.userId.value;
      var i :| 0 <= i < |logins| && logins[i].token == xToken.value && logins[i].userId == id;
      var j :| 0 <= j < |users| && users[j].id == id && users[j].isAdmin != 0;
    }
  }
}

=== FILE: common.dfy ===
/** Small shared vocabulary: an optional value and a few sequence facts the
    solver is better at in isolation. */
module Common {

  /** The conventional Some/None datatype, used where the source returns
      `undefined`, `false` or an empty result set in place of a value. */
  datatype Option<+T> = None | Some(value: T)

  lemma {:induction false} SnocLast<T>(s: seq<T>)
    requires |s| > 0
    ensures s == s[..|s| - 1] + [s[|s| - 1]]
  {
  }

  lemma {:induction false} AppendAssoc<T>(a: seq<T>, b: seq<T>, c: seq<T>)
    ensures (a + b) + c == a + (b + c)
  {
  }

  /** The prefix one longer is the prefix plus the next element. */
  lemma {:induction false} PrefixSnoc<T>(s: seq<T>, i: nat)
    requires i < |s|
    ensures s[..i + 1] == s[..i] + [s[i]]
  {
  }
}

=== FILE: fields.dfy ===
/**
 The field validator `User.validateFields` (user.js:49-81) and the month
 padding of `User.workoutDates` (user.js:88-90).
 */
module Fields {

  import opened Common
  import opened Patterns
  import opened Json

  /** One listed field is acceptable: the body owns it and, when the regex
      table has an entry for its name, `String(value)` matches that entry. */
  predicate FieldValid(body: Body, field: string)
  {
    field in body && (PatternOf(field).Some? ==> Accepts(PatternOf(field).value, Text(body[field])))
  }

  /** Walks `fields` in order and stops at the first missing or mismatching
      field (`false`, here None); otherwise returns exactly the listed fields
      with their request values. */
  function ValidateFields(body: Body, fields: seq<string>): (r: Option<map<string, Value>>)
    ensures r.Some? <==> forall i :: 0 <= i < |fields| ==> FieldValid(body, fields[i])
    ensures r.Some? ==> r.value.Keys == set i | 0 <= i < |fields| :: fields[i]
    ensures r.Some? ==> forall f :: f in r.value ==> f in body && r.value[f] == body[f]
    decreases |fields|
  {
    if |fields| == 0 then Some(map[])
    else if !FieldValid(body, fields[0]) then None
    else
      match ValidateFields(body, fields[1..])
      case None => None
      case Some(rest) => Some(rest[fields[0] := body[fields[0]]])
  }

  /** Fields without a regex only need to be present. */
  lemma {:induction false} UnpatternedFieldsNeedPresence(body: Body, fields: seq<string>)
    requires forall i :: 0 <= i < |fields| ==> PatternOf(fields[i]).None?
    ensures ValidateFields(body, fields).Some? <==> forall i :: 0 <= i < |fields| ==> fields[i] in body
  {
  }

  /** A listed field of a passing body is valid and is carried over as is. */
  lemma {:induction false} ValidatedField(body: Body, fields: seq<string>, i: nat)
    requires ValidateFields(body, fields).Some? && i < |fields|
    ensures FieldValid(body, fields[i])
    ensures fields[i] in ValidateFields(body, fields).value
    ensures ValidateFields(body, fields).value[fields[i]] == body[fields[i]]
  {
  }

  /** A three-field list passes once each of its fields does. */
  lemma {:induction false} ThreeFieldsValid(body: Body, a: string, b: string, c: string)
    requires FieldValid(body, a) && FieldValid(body, b) && FieldValid(body, c)
    ensures ValidateFields(body, [a, b, c]).Some?
  {
    var fields := [a, b, c];
    assert forall i :: 0 <= i < |fields| ==> FieldValid(body, fields[i]);
  }

  /** The `YYYY-MM` month key of `workoutDates`: the year, a dash, and the
      month zero-padded to two digits. The source only calls it on a date
      that passed the date pattern. */
  function MonthKey(date: string): (r: string)
    requires IsDate(date)
    ensures |r| == 7 && r[4] == '-'
    ensures r[..4] == Split(date, '-')[0]
    ensures IsDigits(r[5..]) && ParseDigits(r[5..]) == ParseDigits(Split(date, '-')[1])
  {
    var parts := Split(date, '-');
    var month := parts[1];
    var padded := if |month| == 1 then "0" + month else month;
    assert ParseDigits(padded) == ParseDigits(month) by {
      if |month| == 1 { ParseLeadingZero(month); }
    }
    var r := parts[0] + "-" + padded;
    assert r[5..] == padded;
    r
  }
}

=== FILE: handlers.dfy ===
/**
 The route handlers of server_final.js (lines 95-113, 136-167 and
 248-325): each awaits one `User` operation and maps what it resolves to
 onto the response, through the same write-once sink the operation may
 already have written a 401 into.
 */
module Handlers {

  import opened Common
  import opened Patterns
  import opened Json
  import opened Fields
  import opened Response
  import opened Sessions
  import opened Auth
  import opened ResetTokens
  import opened AdminData
  import opened Muscles

  /** The routes whose handlers are modelled. */
  datatype Route =
    | LoginRoute
    | SignupRoute
    | ResetGenerateRoute
    | ResetValidateRoute
    | ResetRoute
    | AdminTablesRoute
    | AdminDataRoute
    | AdminUpdateRoute
    | AdminDeleteRoute
    | AdminInsertRoute

  const BadCredentials := "Invalid username or password"
  const AlreadyExists := "Already exists"
  const SqlError := "SQL error"

  /** The payload `respondSuccess` sends for what the operation resolved to. */
  function SuccessData(ret: Ret): (d: Data)
    ensures ret.TokenRet? ==> d == TokenData(ret.token)
    ensures ret.TablesRet? ==> d == TablesData(ret.tables)
    ensures ret.DataRet? ==> d == TableData(ret.headers, ret.rows)
    ensures !(ret.TokenRet? || ret.TablesRet? || ret.DataRet?) ==> d == NoData
  {
    match ret
    case TokenRet(token) => TokenData(token)
    case TablesRet(tables) => TablesData(tables)
    case DataRet(headers, rows) => TableData(headers, rows)
    case _ => NoData
  }

  /** The reply a handler attempts for a resolved value, if any: `false`
      is a 400; `0` is a 400 on login and signup and a 500 on insert; a
      rejected promise attempts nothing; everything else is a 200. */
  function Outcome(route: Route, ret: Ret): (a: Option<Attempt>)
    ensures a.None? <==> ret.Rejected?
    ensures ret.False? ==> a == Some(Attempt(400, Some(MissingFields), NoData))
    ensures a.Some? && a.value.status != 200 ==>
      ret.False? || (ret.Zero? && route in {LoginRoute, SignupRoute, AdminInsertRoute})
    ensures a.Some? && a.value.status == 200 ==> a.value == Attempt(200, None, SuccessData(ret))
  {
    match ret
    case Rejected => None
    case False => Some(Attempt(400, Some(MissingFields), NoData))
    case Zero =>
      if route == LoginRoute then Some(Attempt(400, Some(BadCredentials), NoData))
      else if route == SignupRoute then Some(Attempt(400, Some(AlreadyExists), NoData))
      else if route == AdminInsertRoute then Some(Attempt(500, Some(SqlError), NoData))
      else Some(Attempt(200, None, NoData))
    case _ => Some(Attempt(200, None, SuccessData(ret)))
  }

  /** The tail of every handler: attempt the outcome on the sink, and
      rebuild the exercise cache when an admin write resolved to `1`. */
  function Finish(route: Route, ret: Ret, sink: Sink): (r: (Sink, bool))
    ensures r.1 <==> ret.One? && route in {AdminUpdateRoute, AdminDeleteRoute, AdminInsertRoute}
    ensures ret.Rejected? ==> r.0 == sink
    ensures sink.AlreadyResponded() ==> r.0 == sink
    ensures !sink.AlreadyResponded() && !ret.Rejected? ==>
      r.0.written.Some? && r.0.written.value.status == Outcome(route, ret).value.status
    ensures Consistent(sink) ==> Consistent(r.0)
  {
    var sink' := match Outcome(route, ret)
      case None => sink
      case Some(a) => Respond(sink, a.status, a.reason, a.data);
    (sink', ret.One? && route in {AdminUpdateRoute, AdminDeleteRoute, AdminInsertRoute})
  }

  /** `postLogin` */
  function HandleLogin(req: Request, users: seq<UserRow>, logins: seq<LoginRow>, verify: (string, string) -> bool,
                       first: SessionBytes, second: SessionBytes): (r: (Sink, seq<LoginRow>))
    requires !req.sink.AlreadyResponded()
    ensures var (ret, rows) := Login(req.body, users, logins, verify, first, second);
            && r.1 == rows
            && r.0.written.Some?
            && (r.0.written.value.status == 200 <==> ret.TokenRet?)
            && (ret.TokenRet? ==> r.0.written.value == Reply(200, true, None, TokenData(ret.token)))
            && (ret.Zero? ==> r.0.written.value == Reply(400, false, Some(BadCredentials), NoData))
            && (ret.False? ==> r.0.written.value == Reply(400, false, Some(MissingFields), NoData))
  {
    var (ret, rows) := Login(req.body, users, logins, verify, first, second);
    (Finish(LoginRoute, ret, req.sink).0, rows)
  }

  /** `postUserRegister` */
  function HandleSignup(req: Request, users: seq<UserRow>, logins: seq<LoginRow>, id: nat, digest: string, random: SessionBytes):
    (r: (Sink, seq<UserRow>, seq<LoginRow>))
    requires !req.sink.AlreadyResponded()
    requires forall i :: 0 <= i < |users| ==> users[i].id != id
    ensures var (ret, users', logins') := Register(req.body, users, logins, id, digest, random);
            && r.1 == users' && r.2 == logins'
            && (r.0.written.None? <==> ret.Rejected?)
            && (r.0.written.Some? ==> (r.0.written.value.status == 200 <==> ret.TokenRet?))
            && (ret.TokenRet? ==> r.0.written.value == Reply(200, true, None, TokenData(ret.token)))
            && (ret.Zero? ==> r.0.written.value == Reply(400, false, Some(AlreadyExists), NoData))
            && (ret.False? ==> r.0.written.value == Reply(400, false, Some(MissingFields), NoData))
  {
    var (ret, users', logins') := Register(req.body, users, logins, id, digest, random);
    (Finish(SignupRoute, ret, req.sink).0, users', logins')
  }

  /** `postResetValidate`: 200 exactly when a live row holds the token. */
  function HandleResetValidate(req: Request, rows: seq<ResetRow>, now: int): (r: (Sink, seq<ResetRow>))
    requires !req.sink.AlreadyResponded()
    ensures r.1 == ValidateResetToken(req.body, rows, now).1
    ensures r.0.written.Some?
    ensures r.0.written.value.status == 200 <==>
      && ValidateFields(req.body, ValidateFieldList).Some?
      && exists x :: x in rows && !Expired(x, now) && x.token == Text(req.body["token"])
    ensures r.0.written.value.status != 200 ==> r.0.written.value == Reply(400, false, Some(MissingFields), NoData)
  {
    var (ret, rows') := ValidateResetToken(req.body, rows, now);
    (Finish(ResetValidateRoute, ret, req.sink).0, rows')
  }

  /** `postResetGenerate`: the notice goes out only with a 200. */
  function HandleResetGenerate(req: Request, users: seq<UserRow>, rows: seq<ResetRow>, now: int, random: ResetBytes):
    (r: (Sink, seq<ResetRow>, Option<Notice>))
    requires !req.sink.AlreadyResponded()
    ensures var (ret, rows', notice) := GenerateResetToken(req.body, users, rows, now, random);
            && r.1 == rows' && r.2 == notice
            && r.0.written.Some?
            && (r.0.written.value.status == 200 <==> ret.True?)
            && (r.2.Some? ==> r.0.written.value == Reply(200, true, None, NoData))
  {
    var (ret, rows', notice) := GenerateResetToken(req.body, users, rows, now, random);
    (Finish(ResetGenerateRoute, ret, req.sink).0, rows', notice)
  }

  /** `postResetPassword` */
  function HandleReset(req: Request, users: seq<UserRow>, rows: seq<ResetRow>, digest: string):
    (r: (Sink, seq<UserRow>, seq<ResetRow>))
    requires !req.sink.AlreadyResponded()
    ensures var (ret, users', rows') := ResetPassword(req.body, users, rows, digest);
            && r.1 == users' && r.2 == rows'
            && (r.0.written.None? <==> ret.Rejected?)
            && (r.0.written.Some? && r.0.written.value.status == 200 <==> ret.True?)
            && (!ret.True? ==> r.1 == users && r.2 == rows)
  {
    var (ret, users', rows') := ResetPassword(req.body, users, rows, digest);
    (Finish(ResetRoute, ret, req.sink).0, users', rows')
  }

  /** `getAdminTables` */
  function HandleAdminTables(req: Request, schema: Schema): (r: Sink)
    requires !req.sink.AlreadyResponded()
    ensures r.written.Some?
    ensures r.written.value.status == 200 <==> req.userId.Some? && req.admin
    ensures r.written.value.status == 200 ==> r.written.value.data == TablesData(schema.tables)
    ensures req.userId.None? ==> r.written.value == Reply(401, false, Some(InvalidToken), NoData)
    ensures req.userId.Some? && !req.admin ==> r.written.value == Reply(401, false, Some(Unauthorized), NoData)
  {
    var (ret, after) := GetTables(req, schema);
    Finish(AdminTablesRoute, ret, after.sink).0
  }

  /** `postAdminData` */
  function HandleAdminData(req: Request, schema: Schema, store: Store): (r: Sink)
    requires !req.sink.AlreadyResponded()
    ensures var (ret, after) := GetTableData(req, schema, store);
            && (ret.Rejected? ==> r == after.sink)
            && (ret.DataRet? ==> r.written == Some(Reply(200, true, None, TableData(ret.headers, ret.rows))))
            && (ret.False? ==> r.written.Some? && r.written.value.status != 200)
  {
    var (ret, after) := GetTableData(req, schema, store);
    Finish(AdminDataRoute, ret, after.sink).0
  }

  /** `postAdminUpdate`: the reply, the statement sent, and whether the
      exercise cache is rebuilt. */
  function HandleAdminUpdate(req: Request, schema: Schema): (r: (Sink, Option<Command>, bool))
    requires !req.sink.AlreadyResponded()
    ensures var (ret, after, command) := UpdateTableData(req, schema);
            && r.1 == command
            && (r.2 <==> ret.One?)
            && (ret.Rejected? ==> r.0 == after.sink)
            && (command.Some? ==> r.0.written == Some(Reply(200, true, None, NoData)))
            && (ret.False? ==> r.0.written.Some? && r.0.written.value.status != 200)
  {
    var (ret, after, command) := UpdateTableData(req, schema);
    var (sink, rebuild) := Finish(AdminUpdateRoute, ret, after.sink);
    (sink, command, rebuild)
  }

  /** `postAdminDelete` */
  function HandleAdminDelete(req: Request, schema: Schema): (r: (Sink, Option<Command>, bool))
    requires !req.sink.AlreadyResponded()
    ensures var (ret, after, command) := DeleteTableData(req, schema);
            && r.1 == command
            && (r.2 <==> ret.One?)
            && r.0.written.Some?
            && (r.0.written.value.status == 200 <==> command.Some?)
  {
    var (ret, after, command) := DeleteTableData(req, schema);
    var (sink, rebuild) := Finish(AdminDeleteRoute, ret, after.sink);
    (sink, command, rebuild)
  }

  /** `postAdminInsert`: a query that throws before it is sent is a 500. */
  function HandleAdminInsert(req: Request, schema: Schema, throws: bool): (r: (Sink, Option<Command>, bool))
    requires !req.sink.AlreadyResponded()
    ensures var (ret, after, command) := InsertTableData(req, schema, throws);
            && r.1 == command
            && (r.2 <==> ret.One?)
            && (ret.Rejected? ==> r.0 == after.sink)
            && (ret.Zero? ==> r.0.written == Some(Reply(500, false, Some(SqlError), NoData)))
            && (command.Some? ==> r.0.written == Some(Reply(200, true, None, NoData)))
  {
    var (ret, after, command) := InsertTableData(req, schema, throws);
    var (sink, rebuild) := Finish(AdminInsertRoute, ret, after.sink);
    (sink, command, rebuild)
  }

  const MusclesFields: seq<string> := ["timespan"]

  /** `postUserMuscles` over the finished workouts the timespan query
      returns: 400 on a bad timespan, the 401 of `isLoggedIn` for an
      anonymous caller, otherwise 200 with one score per muscle worked. */
  function HandleMuscles(req: Request, workouts: seq<Workout>, muscles: MuscleMap): (r: Sink)
    requires !req.sink.AlreadyResponded()
    ensures r.written.Some?
    ensures ValidateFields(req.body, MusclesFields).None? ==> r.written.value == Reply(400, false, Some(MissingFields), NoData)
    ensures ValidateFields(req.body, MusclesFields).Some? && req.userId.None? ==>
      r.written.value == Reply(401, false, Some(InvalidToken), NoData)
    ensures r.written.value.status == 200 <==> ValidateFields(req.body, MusclesFields).Some? && req.userId.Some?
    ensures r.written.value.status == 200 ==> r.written.value.data == MusclesData(MuscleScores(workouts, muscles))
  {
    match ValidateFields(req.body, MusclesFields)
    case None => RespondMissing(req.sink)
    case Some(_) =>
      var (loggedIn, after) := IsLoggedIn(req);
      if !loggedIn then RespondMissing(after.sink)
      else RespondSuccess(after.sink, MusclesData(MuscleScores(workouts, muscles)))
  }

  /** Every admin write needs an admin session: an anonymous request with
      otherwise valid fields is answered 401 "Invalid token" and sends no
      statement, and a logged-in non-admin gets 401 "Unauthorized". */
  lemma {:induction false} AdminWritesNeedAdmin(req: Request, schema: Schema)
    requires !req.sink.AlreadyResponded()
    requires ValidateFields(req.body, UpdateFields).Some?
    requires req.userId.None? || !req.admin
    ensures HandleAdminUpdate(req, schema).1.None? && !HandleAdminUpdate(req, schema).2
    ensures req.userId.None? ==>
      HandleAdminUpdate(req, schema).0.written == Some(Reply(401, false, Some(InvalidToken), NoData))
    ensures req.userId.Some? ==>
      HandleAdminUpdate(req, schema).0.written == Some(Reply(401, false, Some(Unauthorized), NoData))
  {
    var (ret, after, command) := UpdateTableData(req, schema);
    assert after == IsAdmin(req).1;
  }

  /** An admin naming a table outside the allow-list gets the 400 of a bad
      field and no statement is sent. */
  lemma {:induction false} UnlistedTableIs400(req: Request, schema: Schema)
    requires !req.sink.AlreadyResponded()
    requires ValidateFields(req.body, DeleteFields).Some?
    requires req.userId.Some? && req.admin
    requires !AllowListed(schema, req.body["table"])
    ensures HandleAdminDelete(req, schema) == (Sink(Some(Reply(400, false, Some(MissingFields), NoData))), None, false)
  {
    var (ret, after, command) := DeleteTableData(req, schema);
    assert after == req;
  }

  /** The exercise cache is rebuilt only after a statement on the `exercise` table was sent. */
  lemma {:induction false} RebuildOnlyForExercise(req: Request, schema: Schema, throws: bool)
    requires !req.sink.AlreadyResponded()
    ensures HandleAdminUpdate(req, schema).2 ==>
      HandleAdminUpdate(req, schema).1.Some? && HandleAdminUpdate(req, schema).1.value.table == "exercise"
    ensures HandleAdminDelete(req, schema).2 ==>
      HandleAdminDelete(req, schema).1.Some? && HandleAdminDelete(req, schema).1.value.table == "exercise"
    ensures HandleAdminInsert(req, schema, throws).2 ==>
      HandleAdminInsert(req, schema, throws).1.Some? && HandleAdminInsert(req, schema, throws).1.value.table == "exercise"
  {
  }
}

=== FILE: json.dfy ===
/**
 Request and row values as the handlers see them after `express.json()`
 has parsed a body, with the two coercions the core relies on: `String(v)`
 (what a regex `.test(v)` actually matches against) and `parseInt(v)`.
 */
module Json {

  import opened Common
  import opened Patterns

  /** The integers a JSON number carries exactly: `JSON.parse` yields an
      IEEE double, so only magnitudes up to `Number.MAX_SAFE_INTEGER`
      (2^53 - 1) arrive unrounded, and all of them print without exponent. */
  type SafeInt = n: int | -0x1F_FFFF_FFFF_FFFF <= n <= 0x1F_FFFF_FFFF_FFFF

  /** A JSON value of a request body, or a cell of a table row. Arrays,
      booleans, fractional numbers and unsafe integers are not modelled. */
  datatype Value = Str(s: string) | Num(n: SafeInt) | Obj(entries: seq<(string, Value)>) | Null

  /** A parsed request body: the field names it owns and their values. */
  type Body = map<string, Value>

  /** `String(v)`: the text a regex is tested against. A number prints as
      plain decimal digits, behind a '-' exactly when it is negative. */
  function Text(v: Value): (t: string)
    ensures v.Num? && v.n >= 0 ==> IsDigits(t)
    ensures v.Num? ==> (Negative(t) <==> v.n < 0) && IsDigits(Unsigned(t))
  {
    match v
    case Str(s) => s
    case Num(n) => if n >= 0 then NatToString(n) else "-" + NatToString(-n)
    case Obj(_) => "[object Object]"
    case Null => "null"
  }

  /** A leading '-': `parseInt` negates what it reads. */
  predicate Negative(t: string) { |t| > 0 && t[0] == '-' }

  /** The text after an optional leading '+' or '-'. */
  function Unsigned(t: string): (u: string)
    ensures |u| <= |t|
  {
    if |t| > 0 && (t[0] == '-' || t[0] == '+') then t[1..] else t
  }

  /** "0x" or "0X": `parseInt` without a radix then reads base 16. */
  predicate HexPrefixed(u: string) { |u| >= 2 && u[0] == '0' && (u[1] == 'x' || u[1] == 'X') }

  /** A digit of base 16 when `hex`, of base 10 otherwise. */
  predicate IsRadixDigit(c: char, hex: bool) { IsDigit(c) || (hex && ('a' <= c <= 'f' || 'A' <= c <= 'F')) }

  predicate IsHexDigit(c: char) { IsRadixDigit(c, true) }

  function DigitValueIn(c: char, hex: bool): (d: nat)
    requires IsRadixDigit(c, hex)
    ensures d < Radix(hex)
    ensures IsDigit(c) ==> d == DigitValue(c)
  {
    if IsDigit(c) then DigitValue(c)
    else if 'a' <= c <= 'f' then c as int - 'a' as int + 10
    else c as int - 'A' as int + 10
  }

  function Radix(hex: bool): nat { if hex then 16 else 10 }

  /** The longest prefix of `s` made of digits of the radix. */
  function LeadingDigits(s: string, hex: bool): (p: string)
    ensures |p| <= |s| && p == s[..|p|]
    ensures forall i :: 0 <= i < |p| ==> IsRadixDigit(p[i], hex)
    ensures |p| < |s| ==> !IsRadixDigit(s[|p|], hex)
  {
    if |s| == 0 || !IsRadixDigit(s[0], hex) then "" else [s[0]] + LeadingDigits(s[1..], hex)
  }

  /** The value of a string of digits of the radix. */
  function ValueIn(s: string, hex: bool): nat
    requires forall i :: 0 <= i < |s| ==> IsRadixDigit(s[i], hex)
  {
    if |s| == 0 then 0 else ValueIn(s[..|s| - 1], hex) * Radix(hex) + DigitValueIn(s[|s| - 1], hex)
  }

  /** `parseInt(v)` with no radix, on `String(v)`: an optional sign, then
      either "0x"/"0X" followed by hex digits or decimal digits; the longest
      run of those digits is read and the rest ignored. No digit at all is
      NaN, here None. `-0` reads as 0, which is how it prints. */
  function ParseInt(v: Value): (r: Option<int>)
    ensures var u := Unsigned(Text(v));
            r.Some? <==> if HexPrefixed(u) then |u| > 2 && IsHexDigit(u[2]) else |u| > 0 && IsDigit(u[0])
    ensures r.Some? && !Negative(Text(v)) ==> r.value >= 0
    ensures r.Some? && Negative(Text(v)) ==> r.value <= 0
  {
    var t := Text(v);
    var u := Unsigned(t);
    var hex := HexPrefixed(u);
    var digits := LeadingDigits(if hex then u[2..] else u, hex);
    if |digits| == 0 then None
    else
      var n := ValueIn(digits, hex);
      var value: int := if Negative(t) then -(n as int) else n;
      Some(value)
  }

  /** Decimal digits read in base 10 give the decimal value. */
  lemma {:induction false} DecimalValue(s: string)
    requires forall i :: 0 <= i < |s| ==> IsDigit(s[i])
    ensures ValueIn(s, false) == ParseDigits(s)
    decreases |s|
  {
    if |s| > 0 {
      DecimalValue(s[..|s| - 1]);
    }
  }

  /** Digits followed by something that is not a digit of the radix: the
      digits are the longest run. */
  lemma {:induction false} LeadingRun(s: string, rest: string, hex: bool)
    requires forall i :: 0 <= i < |s| ==> IsRadixDigit(s[i], hex)
    requires |rest| == 0 || !IsRadixDigit(rest[0], hex)
    ensures LeadingDigits(s + rest, hex) == s
    decreases |s|
  {
    if |s| > 0 {
      LeadingRun(s[1..], rest, hex);
      assert (s + rest)[1..] == s[1..] + rest;
      assert [s[0]] + s[1..] == s;
    } else {
      assert s + rest == rest;
    }
  }

  /** A number survives `parseInt(String(n))` unchanged. */
  lemma {:induction false} ParseIntOfNum(n: SafeInt)
    ensures ParseInt(Num(n)) == Some(n)
  {
    var t := Text(Num(n));
    var m: nat := if n >= 0 then n else -n;
    var digits := NatToString(m);
    assert Unsigned(t) == digits;
    assert !HexPrefixed(digits) by {
      if |digits| >= 2 { assert IsDigit(digits[1]); }
    }
    LeadingRun(digits, "", false);
    assert digits + "" == digits;
    DecimalValue(digits);
    ParseNatToString(m);
  }

  /** Decimal digits, then anything that neither continues them nor turns
      them into a hex prefix: `parseInt` reads exactly the digits. */
  lemma {:induction false} ParseIntDecimal(digits: string, rest: string)
    requires IsDigits(digits)
    requires |rest| == 0 || !IsDigit(rest[0])
    requires !HexPrefixed(digits + rest)
    ensures ParseInt(Str(digits + rest)) == Some(ParseDigits(digits))
  {
    var t := digits + rest;
    assert t[0] == digits[0];
    assert Unsigned(t) == t;
    LeadingRun(digits, rest, false);
    DecimalValue(digits);
  }

  /** "0x" or "0X", hex digits, then anything that does not continue them:
      `parseInt` reads the digits in base 16. */
  lemma {:induction false} ParseIntHex(x: char, digits: string, rest: string)
    requires x == 'x' || x == 'X'
    requires |digits| > 0 && forall i :: 0 <= i < |digits| ==> IsRadixDigit(digits[i], true)
    requires |rest| == 0 || !IsRadixDigit(rest[0], true)
    ensures ParseInt(Str(['0', x] + digits + rest)) == Some(ValueIn(digits, true))
  {
    var t := ['0', x] + digits + rest;
    assert Unsigned(t) == t;
    assert HexPrefixed(t);
    assert t[2..] == digits + rest;
    LeadingRun(digits, rest, true);
  }

  /** `parseInt` reads "0x1" as 1 and "0xff" as 255, and finds no number
      in "0x" or "0xg". */
  lemma {:induction false} HexPageStrings()
    ensures ParseInt(Str("0x1")) == Some(1)
    ensures ParseInt(Str("0xff")) == Some(255)
    ensures ParseInt(Str("0x")) == None && ParseInt(Str("0xg")) == None
  {
    ParseIntHex('x', "1", "");
    assert ['0', 'x'] + "1" + "" == "0x1";
    ParseIntHex('x', "ff", "");
    assert ['0', 'x'] + "ff" + "" == "0xff";
    assert ValueIn("ff", true) == 255 by {
      assert "ff"[..1] == "f";
      assert "f"[..0] == "";
    }
    assert "0x"[2..] == "" && "0xg"[2..] == "g";
  }

  /** `parseInt` stops at the first non-digit: "12abc" is 12 and "1e3" is 1. */
  lemma {:induction false} DecimalPageStrings()
    ensures ParseInt(Str("12abc")) == Some(12) && ParseInt(Str("1e3")) == Some(1)
  {
    ParseIntDecimal("12", "abc");
    assert "12" + "abc" == "12abc";
    assert ParseDigits("12") == 12 by { assert "12"[..1] == "1"; assert "1"[..0] == ""; }
    ParseIntDecimal("1", "e3");
    assert "1" + "e3" == "1e3";
    assert ParseDigits("1") == 1 by { assert "1"[..0] == ""; }
  }

  /** A sign is read: "-3" is -3, "+7" is 7, and "-0" prints as 0. */
  lemma {:induction false} SignedPageStrings()
    ensures ParseInt(Str("-3")) == Some(-3) && ParseInt(Str("-0")) == Some(0) && ParseInt(Str("+7")) == Some(7)
  {
    assert Unsigned("-3") == "3" && Unsigned("-0") == "0" && Unsigned("+7") == "7";
    assert LeadingDigits("3", false) == "3" && LeadingDigits("0", false) == "0" && LeadingDigits("7", false) == "7";
    assert ValueIn("3", false) == 3 by { assert "3"[..0] == ""; }
    assert ValueIn("0", false) == 0 by { assert "0"[..0] == ""; }
    assert ValueIn("7", false) == 7 by { assert "7"[..0] == ""; }
  }

  /** An object value, coerced to "[object Object]", passes no field pattern. */
  lemma {:induction false} ObjectFailsEveryPattern(entries: seq<(string, Value)>, p: Pattern)
    ensures !Accepts(p, Text(Obj(entries)))
  {
    var t := Text(Obj(entries));
    assert t[0] == '[';
    match p {
      case HexToken =>
      case Digits =>
      case Username =>
        assert t[7] == ' ';
      case Email =>
        assert '@' !in t by { ObjectTextChars(t); }
        SplitWithoutSep(t, '@');
      case LoginName =>
        assert t[7] == ' ';
        assert '@' !in t by { ObjectTextChars(t); }
        SplitWithoutSep(t, '@');
      case Date =>
        assert '-' !in t by { ObjectTextChars(t); }
        SplitWithoutSep(t, '-');
      case Location =>
        assert t[..3] != "web" by { assert t[..3][0] == '['; }
        assert t[|t| - 6..] != "mobile" by { assert t[|t| - 6..][0] == 'b'; }
    }
  }

  lemma {:induction false} ObjectTextChars(t: string)
    requires t == "[object Object]"
    ensures '@' !in t && '-' !in t
  {
    assert forall k :: 0 <= k < |t| ==> t[k] in "[objectO] ";
  }
}

=== FILE: muscles.dfy ===
/**
 The muscle-usage aggregation of the `/api/user/muscles` handler
 (server_final.js:136-167): count how often each exercise was done over
 the finished workouts, spread those counts over the muscles each exercise
 works, and turn each muscle's load into a score from 1 to 3 relative to
 the number of exercises done.
 */
module Muscles {

  import opened Common

  /** `exercise_id` of one exercise entry of a workout's `json` list. */
  type ExerciseId = nat

  /** The exercise entries of one finished workout, in order. */
  type Workout = seq<ExerciseId>

  /** `exercises.getMuscles(id)`: the muscles an exercise works. */
  type MuscleMap = ExerciseId -> seq<string>

  /** All exercise entries of all workouts, workout by workout. */
  function Flatten(workouts: seq<Workout>): (r: seq<ExerciseId>)
    ensures |workouts| > 0 ==> r == Flatten(workouts[..|workouts| - 1]) + workouts[|workouts| - 1]
    decreases |workouts|
  {
    if |workouts| == 0 then [] else Flatten(workouts[..|workouts| - 1]) + workouts[|workouts| - 1]
  }

  /** The number of times `x` occurs in `s`. */
  function Count<T(==,!new)>(s: seq<T>, x: T): (r: nat)
    ensures r > 0 <==> x in s
    ensures r <= |s|
    decreases |s|
  {
    if |s| == 0 then 0
    else
      var init := Count(s[..|s| - 1], x);
      assert forall y :: y in s <==> y in s[..|s| - 1] || y == s[|s| - 1] by {
        assert s == s[..|s| - 1] + [s[|s| - 1]];
      }
      init + if s[|s| - 1] == x then 1 else 0
  }

  /** Appending `x` adds one occurrence of `x` and leaves the other counts. */
  lemma {:induction false} CountSnoc<T(!new)>(s: seq<T>, x: T)
    ensures forall e :: Count(s + [x], e) == Count(s, e) + if e == x then 1 else 0
    ensures forall e :: e in s + [x] <==> e in s || e == x
  {
    assert (s + [x])[..|s|] == s;
  }

  predicate NoDup<T(==)>(s: seq<T>)
  {
    forall i, j :: 0 <= i < j < |s| ==> s[i] != s[j]
  }

  /** The sum of `f` over the entries of `s`. */
  function SumOf(s: seq<ExerciseId>, f: ExerciseId -> int): int
    decreases |s|
  {
    if |s| == 0 then 0 else SumOf(s[..|s| - 1], f) + f(s[|s| - 1])
  }

  /** The sum of `f` over the distinct ids `d`, each weighted by how often it
      occurs in `s`: the shape of "for each key of the count map". */
  function Weighted(d: seq<ExerciseId>, s: seq<ExerciseId>, f: ExerciseId -> int): int
    decreases |d|
  {
    if |d| == 0 then 0 else Weighted(d[..|d| - 1], s, f) + Count(s, d[|d| - 1]) * f(d[|d| - 1])
  }

  /** How many times exercise `e` lists muscle `m`. */
  function MuscleWeight(muscles: MuscleMap, m: string): ExerciseId -> int
  {
    (e: ExerciseId) => Count(muscles(e), m)
  }

  /** Every exercise entry counts once. */
  function Unit(): ExerciseId -> int
  {
    (e: ExerciseId) => 1
  }

  /** The load of muscle `m`: one per entry of an exercise that lists it,
      per listing. */
  function RawLoad(flat: seq<ExerciseId>, muscles: MuscleMap, m: string): int
  {
    SumOf(flat, MuscleWeight(muscles, m))
  }

  lemma {:induction false} WeightedEmpty(d: seq<ExerciseId>, f: ExerciseId -> int)
    ensures Weighted(d, [], f) == 0
    decreases |d|
  {
    if |d| > 0 {
      WeightedEmpty(d[..|d| - 1], f);
    }
  }

  lemma {:induction false} MulSucc(c: int, n: int)
    ensures (n + 1) * c == n * c + c
  {
  }

  /** One more entry `x` adds `f(x)` once for every copy of `x` among the keys. */
  lemma {:induction false} WeightedSnoc(d: seq<ExerciseId>, s: seq<ExerciseId>, x: ExerciseId, f: ExerciseId -> int)
    ensures Weighted(d, s + [x], f) == Weighted(d, s, f) + Count(d, x) * f(x)
    decreases |d|
  {
    if |d| > 0 {
      var init := d[..|d| - 1];
      var y := d[|d| - 1];
      WeightedSnoc(init, s, x, f);
      assert (s + [x])[..|s + [x]| - 1] == s;
      var before := Count(s, y);
      var fy := f(y);
      var prior := Count(init, x);
      assert Weighted(d, s + [x], f) == Weighted(init, s, f) + prior * f(x) + Count(s + [x], y) * fy;
      assert Weighted(d, s, f) == Weighted(init, s, f) + before * fy;
      if x == y {
        assert Count(s + [x], y) == before + 1;
        MulSucc(fy, before);
        assert Count(d, x) == prior + 1;
        MulSucc(f(x), prior);
      } else {
        assert Count(s + [x], y) == before;
        assert Count(d, x) == prior;
      }
    }
  }

  lemma {:induction false} CountOfUnique(d: seq<ExerciseId>, x: ExerciseId)
    requires NoDup(d) && x in d
    ensures Count(d, x) == 1
    decreases |d|
  {
    var init := d[..|d| - 1];
    assert NoDup(init);
    if d[|d| - 1] == x {
      assert x !in init by {
        assert forall i :: 0 <= i < |init| ==> init[i] == d[i] && d[i] != d[|d| - 1];
      }
    } else {
      assert d == init + [d[|d| - 1]];
      CountOfUnique(init, x);
    }
  }

  /** Summing per distinct id with multiplicities is summing per entry:
      the regrouping the handler's count map performs. */
  lemma {:induction false} Regroup(d: seq<ExerciseId>, s: seq<ExerciseId>, f: ExerciseId -> int)
    requires NoDup(d)
    requires forall x :: x in s ==> x in d
    ensures Weighted(d, s, f) == SumOf(s, f)
    decreases |s|
  {
    if |s| == 0 {
      WeightedEmpty(d, f);
    } else {
      var init := s[..|s| - 1];
      var x := s[|s| - 1];
      assert s == init + [x];
      WeightedSnoc(d, init, x, f);
      CountOfUnique(d, x);
      Regroup(d, init, f);
    }
  }

  lemma {:induction false} SumOfUnit(s: seq<ExerciseId>)
    ensures SumOf(s, Unit()) == |s|
    decreases |s|
  {
    if |s| > 0 {
      SumOfUnit(s[..|s| - 1]);
    }
  }

  /** A muscle has positive load exactly when some entry lists it. */
  lemma {:induction false} LoadedIffListed(flat: seq<ExerciseId>, muscles: MuscleMap, m: string)
    ensures RawLoad(flat, muscles, m) >= 0
    ensures RawLoad(flat, muscles, m) > 0 <==> exists k :: 0 <= k < |flat| && m in muscles(flat[k])
    decreases |flat|
  {
    if |flat| > 0 {
      var init := flat[..|flat| - 1];
      LoadedIffListed(init, muscles, m);
      assert forall k :: 0 <= k < |init| ==> init[k] == flat[k];
      if exists k :: 0 <= k < |flat| && m in muscles(flat[k]) {
        var k :| 0 <= k < |flat| && m in muscles(flat[k]);
        if k < |init| {
          assert m in muscles(init[k]);
        }
      }
    }
  }

  /** `Math.round(num / den)` on exact rationals: the nearest integer, ties
      rounded up. */
  function Round(num: nat, den: nat): (r: nat)
    requires den > 0
    ensures 2 * r * den <= 2 * num + den < 2 * (r + 1) * den
  {
    var r := (2 * num + den) / (2 * den);
    assert 2 * num + den == r * (2 * den) + (2 * num + den) % (2 * den);
    r
  }

  /** The rounded quotient reaches `k` exactly when the doubled numerator
      plus the denominator reaches `2 * k` denominators. */
  lemma {:induction false} RoundAtLeast(num: nat, den: nat, k: nat)
    requires den > 0
    ensures Round(num, den) >= k <==> 2 * num + den >= 2 * k * den
  {
    var r := Round(num, den);
    if r >= k {
      assert 2 * r * den >= 2 * k * den by { MulMono(k, r, 2 * den); }
    }
    if 2 * num + den >= 2 * k * den {
      MulCancel(k, r + 1, 2 * den);
    }
  }

  lemma {:induction false} MulMono(a: nat, b: nat, c: nat)
    requires a <= b
    ensures a * c <= b * c
  {
  }

  lemma {:induction false} MulCancel(a: nat, b: nat, c: nat)
    requires a * c < b * c
    ensures a < b
  {
    if b <= a {
      MulMono(b, a, c);
    }
  }

  /** `Math.min(3, Math.max(1, Math.round(raw / total * 3 + 1)))`: three
      for a muscle loaded by at least half of the exercises done, two for at
      least a sixth, one below that. */
  function Score(raw: nat, total: nat): (r: int)
    requires total > 0
    ensures 1 <= r <= 3
    ensures r == 3 <==> 2 * raw >= total
    ensures r >= 2 <==> 6 * raw >= total
  {
    var rounded := Round(3 * raw + total, total);
    RoundAtLeast(3 * raw + total, total, 3);
    RoundAtLeast(3 * raw + total, total, 2);
    if rounded > 3 then 3 else if rounded < 1 then 1 else rounded
  }

  /** More load never lowers a score. */
  lemma {:induction false} ScoreMonotone(a: nat, b: nat, total: nat)
    requires total > 0 && a <= b
    ensures Score(a, total) <= Score(b, total)
  {
  }

  /** The reference result: one score per muscle listed by some exercise
      entry, from its load and the number of entries. */
  function MuscleScores(workouts: seq<Workout>, muscles: MuscleMap): (r: map<string, int>)
    ensures forall m :: m in r <==> exists k :: 0 <= k < |Flatten(workouts)| && m in muscles(Flatten(workouts)[k])
    ensures forall m :: m in r ==> 1 <= r[m] <= 3
  {
    var flat := Flatten(workouts);
    map k, m | 0 <= k < |flat| && m in muscles(flat[k]) :: m := Score(RawLoadOf(flat, muscles, m, k), |flat|)
  }

  /** `RawLoad` at a muscle known to be listed by entry `k`, hence with a
      positive load and a non-empty entry list. */
  function RawLoadOf(flat: seq<ExerciseId>, muscles: MuscleMap, m: string, k: nat): (r: nat)
    requires k < |flat| && m in muscles(flat[k])
    ensures r == RawLoad(flat, muscles, m) && r > 0
  {
    LoadedIffListed(flat, muscles, m);
    RawLoad(flat, muscles, m)
  }

  /** What the first loop keeps about the entries `seen` so far: `order`
      holds each seen id once, and `done` counts each of them. */
  ghost predicate Counted(done: map<ExerciseId, nat>, order: seq<ExerciseId>, seen: seq<ExerciseId>)
  {
    && NoDup(order)
    && (forall e :: e in done <==> e in order)
    && (forall e :: e in order <==> e in seen)
    && (forall e :: e in done ==> done[e] == Count(seen, e))
  }

  /** One more entry: a new id is appended to `order` at count 0,
      then its count goes up by one. */
  lemma {:induction false} CountedStep(done: map<ExerciseId, nat>, order: seq<ExerciseId>, seen: seq<ExerciseId>, id: ExerciseId)
    requires Counted(done, order, seen)
    ensures id in done ==> Counted(done[id := done[id] + 1], order, seen + [id])
    ensures id !in done ==> Counted(done[id := 0][id := done[id := 0][id] + 1], order + [id], seen + [id])
  {
    CountSnoc(seen, id);
    if id !in done {
      var order' := order + [id];
      assert forall e :: e in order' <==> e in order || e == id;
      assert forall i :: 0 <= i < |order| ==> order'[i] == order[i] && order[i] != id;
    }
  }

  /** The first loop of the handler: `exercisesDone[id]++` for every entry
      of every workout, visited workout by workout. `order` lists the ids in
      the order they were first seen. `Object.keys` would list these integer
      keys in ascending order instead; `SpreadLoad`'s result does not depend
      on the order, since `RawIsLoad` holds for any duplicate-free listing of
      the ids. */
  method CountEntries(workouts: seq<Workout>) returns (done: map<ExerciseId, nat>, order: seq<ExerciseId>)
    ensures NoDup(order)
    ensures forall e :: e in done <==> e in order
    ensures forall e :: e in order <==> e in Flatten(workouts)
    ensures forall e :: e in done ==> done[e] == Count(Flatten(workouts), e)
  {
    var flat := Flatten(workouts);
    done := map[];
    order := [];
    var i := 0;
    while i < |flat|
      invariant 0 <= i <= |flat|
      invariant Counted(done, order, flat[..i])
    {
      var id := flat[i];
      PrefixSnoc(flat, i);
      CountedStep(done, order, flat[..i], id);
      if id !in done {
        order := order + [id];
        done := done[id := 0];
      }
      done := done[id := done[id] + 1];
      i := i + 1;
    }
    assert flat[..i] == flat;
  }

  /** What the inner loop keeps about the muscles `seen` so far: each of
      them, and each muscle of `raw`, has its earlier load plus `c` per
      listing. */
  ghost predicate Loaded(next: map<string, int>, raw: map<string, int>, seen: seq<string>, c: nat)
  {
    && (forall m :: m in next <==> m in raw || m in seen)
    && (forall m :: m in next ==> next[m] == (if m in raw then raw[m] else 0) + Count(seen, m) * c)
  }

  /** One more listing of `m`: it starts at 0 when new, then gains `c`. */
  lemma {:induction false} LoadedStep(next: map<string, int>, raw: map<string, int>, seen: seq<string>, c: nat, m: string)
    requires Loaded(next, raw, seen, c)
    ensures m in next ==> Loaded(next[m := next[m] + c], raw, seen + [m], c)
    ensures m !in next ==> Loaded(next[m := 0][m := next[m := 0][m] + c], raw, seen + [m], c)
  {
    CountSnoc(seen, m);
    MulSucc(c, Count(seen, m));
  }

  /** The inner loop of the second one: every muscle `listed` by one
      exercise gets that exercise's count `c` added, once per listing,
      starting at 0 when it is new. */
  method AddLoad(raw: map<string, int>, listed: seq<string>, c: nat) returns (next: map<string, int>)
    ensures forall m :: m in next <==> m in raw || m in listed
    ensures forall m :: m in next ==> next[m] == (if m in raw then raw[m] else 0) + Count(listed, m) * c
  {
    next := raw;
    var j := 0;
    while j < |listed|
      invariant 0 <= j <= |listed|
      invariant Loaded(next, raw, listed[..j], c)
    {
      var m := listed[j];
      PrefixSnoc(listed, j);
      LoadedStep(next, raw, listed[..j], c, m);
      if m !in next {
        next := next[m := 0];
      }
      next := next[m := next[m] + c];
      j := j + 1;
    }
    assert listed[..j] == listed;
  }

  /** Some exercise of `d` lists muscle `m`. */
  predicate Listed(d: seq<ExerciseId>, muscles: MuscleMap, m: string)
    decreases |d|
  {
    |d| > 0 && (Listed(d[..|d| - 1], muscles, m) || m in muscles(d[|d| - 1]))
  }

  lemma {:induction false} ListedIff(d: seq<ExerciseId>, muscles: MuscleMap, m: string)
    ensures Listed(d, muscles, m) <==> exists p :: 0 <= p < |d| && m in muscles(d[p])
    decreases |d|
  {
    if |d| > 0 {
      var init := d[..|d| - 1];
      ListedIff(init, muscles, m);
      assert forall p :: 0 <= p < |init| ==> init[p] == d[p];
      if exists p :: 0 <= p < |d| && m in muscles(d[p]) {
        var p :| 0 <= p < |d| && m in muscles(d[p]);
        if p < |init| {
          assert m in muscles(init[p]);
        }
      }
    }
  }

  /** Taking one more key into the sums of the second loop. */
  lemma {:induction false} SpreadStep(order: seq<ExerciseId>, k: nat, flat: seq<ExerciseId>, muscles: MuscleMap, m: string)
    requires k < |order|
    ensures Weighted(order[..k + 1], flat, MuscleWeight(muscles, m))
            == Weighted(order[..k], flat, MuscleWeight(muscles, m)) + Count(muscles(order[k]), m) * Count(flat, order[k])
    ensures Listed(order[..k + 1], muscles, m) <==> Listed(order[..k], muscles, m) || m in muscles(order[k])
  {
    assert order[..k + 1][..k] == order[..k];
    MulComm(Count(muscles(order[k]), m), Count(flat, order[k]));
  }

  lemma {:induction false} MulComm(a: int, b: int)
    ensures a * b == b * a
  {
  }

  /** What the second loop keeps about the keys `d` visited so far: the
      muscles some of them list are loaded, with the weighted sum of the
      entries; the others have nothing to add. */
  ghost predicate Spread(raw: map<string, int>, d: seq<ExerciseId>, flat: seq<ExerciseId>, muscles: MuscleMap)
  {
    && (forall m :: m in raw <==> Listed(d, muscles, m))
    && (forall m :: m in raw ==> raw[m] == Weighted(d, flat, MuscleWeight(muscles, m)))
    && (forall m :: m !in raw ==> Weighted(d, flat, MuscleWeight(muscles, m)) == 0)
  }

  /** Adding key `order[k]`'s count to the muscles it lists extends the
      visited keys by one. */
  lemma {:induction false} SpreadKeyStep(raw: map<string, int>, next: map<string, int>, order: seq<ExerciseId>, k: nat,
                                         flat: seq<ExerciseId>, muscles: MuscleMap)
    requires k < |order| && Spread(raw, order[..k], flat, muscles)
    requires forall m :: m in next <==> m in raw || m in muscles(order[k])
    requires forall m :: m in next ==>
               next[m] == (if m in raw then raw[m] else 0) + Count(muscles(order[k]), m) * Count(flat, order[k])
    ensures Spread(next, order[..k + 1], flat, muscles)
  {
    forall m
      ensures Weighted(order[..k + 1], flat, MuscleWeight(muscles, m))
              == Weighted(order[..k], flat, MuscleWeight(muscles, m)) + Count(muscles(order[k]), m) * Count(flat, order[k])
      ensures Listed(order[..k + 1], muscles, m) <==> Listed(order[..k], muscles, m) || m in muscles(order[k])
    {
      SpreadStep(order, k, flat, muscles, m);
    }
  }

  /** The second loop: `musclesUsed[muscle] += exercisesDone[id]` for every
      muscle listed by every counted exercise. */
  method SpreadLoad(order: seq<ExerciseId>, done: map<ExerciseId, nat>, ghost flat: seq<ExerciseId>, muscles: MuscleMap)
    returns (raw: map<string, int>)
    requires forall e :: e in order ==> e in done && done[e] == Count(flat, e)
    ensures forall m :: m in raw <==> Listed(order, muscles, m)
    ensures forall m :: m in raw ==> raw[m] == Weighted(order, flat, MuscleWeight(muscles, m))
  {
    raw := map[];
    var k := 0;
    while k < |order|
      invariant 0 <= k <= |order|
      invariant Spread(raw, order[..k], flat, muscles)
    {
      var e := order[k];
      var next := AddLoad(raw, muscles(e), done[e]);
      SpreadKeyStep(raw, next, order, k, flat, muscles);
      raw := next;
      k := k + 1;
    }
    assert order[..k] == order;
  }

  /** `Object.values(exercisesDone).reduce((acc, x) => acc + x, 0)` */
  method SumCounts(order: seq<ExerciseId>, done: map<ExerciseId, nat>, ghost flat: seq<ExerciseId>) returns (total: nat)
    requires forall e :: e in order ==> e in done && done[e] == Count(flat, e)
    ensures total == Weighted(order, flat, Unit())
  {
    total := 0;
    var k := 0;
    while k < |order|
      invariant 0 <= k <= |order|
      invariant total == Weighted(order[..k], flat, Unit())
    {
      assert order[..k + 1][..k] == order[..k];
      total := total + done[order[k]];
      k := k + 1;
    }
    assert order[..k] == order;
  }

  /** The whole handler computation: count the entries per exercise id, add
      each exercise's count to every muscle it lists, sum the counts, and
      score every muscle that received load. The result is the reference
      `MuscleScores`, whatever order the keys are visited in. */
  method AggregateMuscles(workouts: seq<Workout>, muscles: MuscleMap)
    returns (done: map<ExerciseId, nat>, total: nat, scores: map<string, int>)
    ensures forall e :: e in done <==> e in Flatten(workouts)
    ensures forall e :: e in done ==> done[e] == Count(Flatten(workouts), e)
    ensures total == |Flatten(workouts)|
    ensures scores == MuscleScores(workouts, muscles)
  {
    ghost var flat := Flatten(workouts);
    var order;
    done, order := CountEntries(workouts);
    var raw := SpreadLoad(order, done, flat, muscles);
    total := SumCounts(order, done, flat);
    Regroup(order, flat, Unit());
    SumOfUnit(flat);
    RawIsLoad(order, flat, muscles, raw);
    scores := map m | m in raw :: Score(raw[m], total);
    ScoresMatch(workouts, muscles, raw, scores);
  }

  /** Listing by a distinct key is listing by an entry. */
  lemma {:induction false} ListedByKeys(order: seq<ExerciseId>, flat: seq<ExerciseId>, muscles: MuscleMap, m: string)
    requires forall e :: e in order <==> e in flat
    ensures Listed(order, muscles, m) <==> exists q :: 0 <= q < |flat| && m in muscles(flat[q])
  {
    ListedIff(order, muscles, m);
    if exists q :: 0 <= q < |flat| && m in muscles(flat[q]) {
      var q :| 0 <= q < |flat| && m in muscles(flat[q]);
      assert flat[q] in order;
      var p :| 0 <= p < |order| && order[p] == flat[q];
      assert m in muscles(order[p]);
    }
    if Listed(order, muscles, m) {
      var p :| 0 <= p < |order| && m in muscles(order[p]);
      assert order[p] in flat;
      var q :| 0 <= q < |flat| && flat[q] == order[p];
      assert m in muscles(flat[q]);
    }
  }

  /** The per-muscle sums the second loop leaves are the loads, and their
      keys are the muscles some entry lists. */
  lemma {:induction false} RawIsLoad(order: seq<ExerciseId>, flat: seq<ExerciseId>, muscles: MuscleMap, raw: map<string, int>)
    requires NoDup(order) && forall e :: e in order <==> e in flat
    requires forall m :: m in raw <==> Listed(order, muscles, m)
    requires forall m :: m in raw ==> raw[m] == Weighted(order, flat, MuscleWeight(muscles, m))
    ensures forall m :: m in raw ==> raw[m] == RawLoad(flat, muscles, m) && raw[m] > 0
    ensures forall m :: m in raw <==> exists q :: 0 <= q < |flat| && m in muscles(flat[q])
  {
    forall m
      ensures m in raw <==> exists q :: 0 <= q < |flat| && m in muscles(flat[q])
      ensures m in raw ==> raw[m] == RawLoad(flat, muscles, m) && raw[m] > 0
    {
      ListedByKeys(order, flat, muscles, m);
      Regroup(order, flat, MuscleWeight(muscles, m));
      LoadedIffListed(flat, muscles, m);
    }
  }

  lemma {:induction false} ScoresMatch(workouts: seq<Workout>, muscles: MuscleMap, raw: map<string, int>, scores: map<string, int>)
    requires forall m :: m in raw ==> raw[m] == RawLoad(Flatten(workouts), muscles, m) && raw[m] > 0
    requires forall m :: m in raw <==> exists q :: 0 <= q < |Flatten(workouts)| && m in muscles(Flatten(workouts)[q])
    requires |Flatten(workouts)| > 0 || raw == map[]
    requires scores == map m | m in raw :: Score(raw[m], |Flatten(workouts)|)
    ensures scores == MuscleScores(workouts, muscles)
  {
    var reference := MuscleScores(workouts, muscles);
    assert scores.Keys == reference.Keys;
    forall m | m in scores
      ensures scores[m] == reference[m]
    {
      var flat := Flatten(workouts);
      var k, m' :| 0 <= k < |flat| && m' in muscles(flat[k]) && m' == m && reference[m] == Score(RawLoadOf(flat, muscles, m, k), |flat|);
    }
  }

  /** Every entry lists the muscle at least once, so its load is at least the
      number of entries. */
  lemma {:induction false} LoadCoversEntries(flat: seq<ExerciseId>, muscles: MuscleMap, m: string)
    requires forall k :: 0 <= k < |flat| ==> m in muscles(flat[k])
    ensures RawLoad(flat, muscles, m) >= |flat|
    decreases |flat|
  {
    if |flat| > 0 {
      var init := flat[..|flat| - 1];
      assert forall k :: 0 <= k < |init| ==> init[k] == flat[k];
      LoadCoversEntries(init, muscles, m);
    }
  }

  /** A muscle worked by every exercise done gets the top score. */
  lemma {:induction false} WorkedThroughoutScoresThree(workouts: seq<Workout>, muscles: MuscleMap, m: string)
    requires |Flatten(workouts)| > 0
    requires forall k :: 0 <= k < |Flatten(workouts)| ==> m in muscles(Flatten(workouts)[k])
    ensures m in MuscleScores(workouts, muscles) && MuscleScores(workouts, muscles)[m] == 3
  {
    var flat := Flatten(workouts);
    LoadCoversEntries(flat, muscles, m);
    assert m in muscles(flat[0]);
    assert RawLoadOf(flat, muscles, m, 0) >= |flat|;
  }

  lemma {:induction false} ExampleLoad(muscles: MuscleMap, m: string, n1: nat, n2: nat)
    requires Count(muscles(1), m) == n1 && Count(muscles(2), m) == n2
    ensures RawLoad([1, 1, 2], muscles, m) == n1 + n1 + n2
  {
    var f := MuscleWeight(muscles, m);
    var flat: seq<ExerciseId> := [1, 1, 2];
    assert flat[..2] == [1, 1] && flat[..2][..1] == [1] && [1][..0] == [];
    assert SumOf(flat, f) == SumOf([1], f) + f(1) + f(2);
  }

  /** Two workouts, `[1, 1]` and `[2]`, where exercise 1 works the chest and
      exercise 2 the chest and the triceps: the chest is loaded by all three
      entries and scores 3, the triceps by one of three and scores 2. */
  lemma {:induction false} WorkedExample(muscles: MuscleMap)
    requires muscles(1) == ["chest"] && muscles(2) == ["chest", "triceps"]
    ensures MuscleScores([[1, 1], [2]], muscles) == map["chest" := 3, "triceps" := 2]
  {
    var workouts: seq<Workout> := [[1, 1], [2]];
    assert workouts[..1] == [[1, 1]];
    assert Flatten([[1, 1]]) == [1, 1];
    var flat := Flatten(workouts);
    assert flat == [1, 1, 2];
    assert ["chest", "triceps"][..1] == ["chest"];
    ExampleLoad(muscles, "chest", 1, 1);
    ExampleLoad(muscles, "triceps", 0, 1);
    var r := MuscleScores(workouts, muscles);
    assert "chest" in muscles(flat[0]) && "triceps" in muscles(flat[2]);
    assert r["chest"] == Score(RawLoadOf(flat, muscles, "chest", 0), 3);
    assert r["triceps"] == Score(RawLoadOf(flat, muscles, "triceps", 2), 3);
    ExampleKeys(flat, muscles, r);
    assert Score(3, 3) == 3 && Score(1, 3) == 2;
    assert r["chest"] == 3 && r["triceps"] == 2;
    ExampleMap(r);
  }

  lemma {:induction false} ExampleMap(r: map<string, int>)
    requires r.Keys == {"chest", "triceps"} && r["chest"] == 3 && r["triceps"] == 2
    ensures r == map["chest" := 3, "triceps" := 2]
  {
    var expected := map["chest" := 3, "triceps" := 2];
    assert forall m :: m in r ==> r[m] == expected[m];
  }

  lemma {:induction false} ExampleKeys(flat: seq<ExerciseId>, muscles: MuscleMap, r: map<string, int>)
    requires flat == [1, 1, 2]
    requires muscles(1) == ["chest"] && muscles(2) == ["chest", "triceps"]
    requires forall m :: m in r <==> exists k :: 0 <= k < |flat| && m in muscles(flat[k])
    ensures r.Keys == {"chest", "triceps"}
  {
    assert "chest" in muscles(flat[0]) && "triceps" in muscles(flat[2]);
    forall m | m in r
      ensures m == "chest" || m == "triceps"
    {
      ExampleListed(muscles, m);
    }
  }

  lemma {:induction false} ExampleListed(muscles: MuscleMap, m: string)
    requires muscles(1) == ["chest"] && muscles(2) == ["chest", "triceps"]
    ensures (exists k :: 0 <= k < 3 && m in muscles([1, 1, 2][k])) ==> m == "chest" || m == "triceps"
  {
    var flat: seq<ExerciseId> := [1, 1, 2];
    assert forall k :: 0 <= k < 3 ==> flat[k] == 1 || flat[k] == 2;
  }
}

=== FILE: patterns.dfy ===
/**
 Hand-coded versions of the regular expressions that `User.validateFields`
 (user.js:50-65) applies to request fields, plus the string helpers they
 need: splitting on a separator, decimal rendering and parsing, and the
 lower-case hex rendering of `crypto.randomBytes(n).toString('hex')`.
 */
module Patterns {

  import opened Common

  type Byte = b: int | 0 <= b < 256

  predicate IsDigit(c: char) { '0' <= c <= '9' }

  /** `[a-f0-9]` */
  predicate IsLowerHex(c: char) { IsDigit(c) || 'a' <= c <= 'f' }

  /** `\w`, that is `[A-Za-z0-9_]` */
  predicate IsWordChar(c: char) { 'a' <= c <= 'z' || 'A' <= c <= 'Z' || IsDigit(c) || c == '_' }

  /** `[a-zA-Z0-9._-]`, which is also `[\w-.]` */
  predicate IsNameChar(c: char) { IsWordChar(c) || c == '.' || c == '-' }

  /** `[\w-]` */
  predicate IsLabelChar(c: char) { IsWordChar(c) || c == '-' }

  predicate AllNameChars(s: string) { forall i :: 0 <= i < |s| ==> IsNameChar(s[i]) }
  predicate AllLabelChars(s: string) { forall i :: 0 <= i < |s| ==> IsLabelChar(s[i]) }

  // ---------------------------------------------------------------------
  // Splitting on a separator (String.prototype.split with a one-char string)

  /** `parts` with `c` appended to its last piece. */
  function ExtendLast(parts: seq<string>, c: char): (r: seq<string>)
    requires |parts| >= 1
    ensures |r| == |parts|
  {
    parts[..|parts| - 1] + [parts[|parts| - 1] + [c]]
  }

  /** The pieces of `s` between occurrences of `sep`, like `s.split(sep)`. */
  function Split(s: string, sep: char): (parts: seq<string>)
    ensures |parts| >= 1
    ensures forall i :: 0 <= i < |parts| ==> sep !in parts[i]
    decreases |s|
  {
    if |s| == 0 then [""]
    else
      var init := Split(s[..|s| - 1], sep);
      var c := s[|s| - 1];
      if c == sep then init + [""]
      else
        var r := ExtendLast(init, c);
        assert forall i :: 0 <= i < |r| - 1 ==> r[i] == init[i];
        r
  }

  /** `parts.join(sep)` */
  function Join(parts: seq<string>, sep: char): string
    requires |parts| >= 1
  {
    if |parts| == 1 then parts[0]
    else Join(parts[..|parts| - 1], sep) + [sep] + parts[|parts| - 1]
  }

  /** One more character splits as the definition says, for `s + [c]`. */
  lemma {:induction false} SplitSnoc(s: string, c: char, sep: char)
    ensures Split(s + [c], sep) == if c == sep then Split(s, sep) + [""] else ExtendLast(Split(s, sep), c)
  {
    assert (s + [c])[..|s|] == s;
  }

  lemma {:induction false} JoinSnocEmpty(parts: seq<string>, sep: char)
    requires |parts| >= 1
    ensures Join(parts + [""], sep) == Join(parts, sep) + [sep]
  {
    assert (parts + [""])[..|parts|] == parts;
  }

  lemma {:induction false} JoinExtendLast(parts: seq<string>, c: char, sep: char)
    requires |parts| >= 1
    ensures Join(ExtendLast(parts, c), sep) == Join(parts, sep) + [c]
  {
    var head := parts[..|parts| - 1];
    var last := parts[|parts| - 1];
    var ext := ExtendLast(parts, c);
    if |parts| > 1 {
      assert ext[..|ext| - 1] == head;
      assert Join(ext, sep) == Join(head, sep) + [sep] + (last + [c]);
    }
  }

  lemma {:induction false} ExtendLastAppend(a: seq<string>, b: seq<string>, c: char)
    requires |b| >= 1
    ensures ExtendLast(a + b, c) == a + ExtendLast(b, c)
  {
    assert (a + b)[..|a + b| - 1] == a + b[..|b| - 1];
  }

  /** Joining the pieces of a split gives back the original string. */
  lemma {:induction false} JoinSplit(s: string, sep: char)
    ensures Join(Split(s, sep), sep) == s
    decreases |s|
  {
    if |s| > 0 {
      var p := s[..|s| - 1];
      var c := s[|s| - 1];
      assert s == p + [c];
      JoinSplit(p, sep);
      SplitSnoc(p, c, sep);
      if c == sep {
        JoinSnocEmpty(Split(p, sep), sep);
      } else {
        JoinExtendLast(Split(p, sep), c, sep);
      }
    }
  }

  /** A string without the separator splits into itself alone. */
  lemma {:induction false} SplitWithoutSep(s: string, sep: char)
    requires sep !in s
    ensures Split(s, sep) == [s]
    decreases |s|
  {
    if |s| > 0 {
      var p := s[..|s| - 1];
      SplitWithoutSep(p, sep);
      SnocLast(s);
      SplitSnoc(p, s[|s| - 1], sep);
      assert ExtendLast([p], s[|s| - 1]) == [p + [s[|s| - 1]]];
    }
  }

  /** Splitting `x + sep + y` splits `x` and `y` independently. */
  lemma {:induction false} SplitAround(x: string, sep: char, y: string)
    ensures Split(x + [sep] + y, sep) == Split(x, sep) + Split(y, sep)
    decreases |y|
  {
    if |y| == 0 {
      SplitSnoc(x, sep, sep);
      assert x + [sep] + y == x + [sep];
    } else {
      var y' := y[..|y| - 1];
      SplitAround(x, sep, y');
      SplitAroundStep(x, sep, y', y[|y| - 1]);
      assert y == y' + [y[|y| - 1]];
    }
  }

  lemma {:induction false} SplitAroundStep(x: string, sep: char, y: string, c: char)
    requires Split(x + [sep] + y, sep) == Split(x, sep) + Split(y, sep)
    ensures Split(x + [sep] + (y + [c]), sep) == Split(x, sep) + Split(y + [c], sep)
  {
    var s := x + [sep] + y;
    assert x + [sep] + (y + [c]) == s + [c];
    var sx := Split(x, sep);
    var sy := Split(y, sep);
    SplitSnoc(s, c, sep);
    SplitSnoc(y, c, sep);
    if c == sep {
      assert Split(s + [c], sep) == (sx + sy) + [""];
      assert Split(y + [c], sep) == sy + [""];
      AppendAssoc(sx, sy, [""]);
    } else {
      assert Split(s + [c], sep) == ExtendLast(sx + sy, c);
      assert Split(y + [c], sep) == ExtendLast(sy, c);
      ExtendLastAppend(sx, sy, c);
    }
  }

  /** Splitting a join of separator-free pieces gives back the pieces. */
  lemma {:induction false} SplitJoin(parts: seq<string>, sep: char)
    requires |parts| >= 1
    requires forall i :: 0 <= i < |parts| ==> sep !in parts[i]
    ensures Split(Join(parts, sep), sep) == parts
    decreases |parts|
  {
    if |parts| == 1 {
      SplitWithoutSep(parts[0], sep);
    } else {
      var init := parts[..|parts| - 1];
      var last := parts[|parts| - 1];
      SplitJoin(init, sep);
      SplitAround(Join(init, sep), sep, last);
      SplitWithoutSep(last, sep);
      assert init + [last] == parts;
    }
  }

  // ---------------------------------------------------------------------
  // Decimal digits

  predicate IsDigits(s: string) { |s| > 0 && forall i :: 0 <= i < |s| ==> IsDigit(s[i]) }

  function DigitChar(d: nat): (c: char)
    requires d < 10
    ensures IsDigit(c)
  {
    ('0' as int + d) as char
  }

  function DigitValue(c: char): (d: nat)
    requires IsDigit(c)
    ensures d < 10
    ensures DigitChar(d) == c
  {
    c as int - '0' as int
  }

  /** The decimal value of a string of digits (an empty string reads as 0). */
  function ParseDigits(s: string): nat
    requires forall i :: 0 <= i < |s| ==> IsDigit(s[i])
  {
    if |s| == 0 then 0 else ParseDigits(s[..|s| - 1]) * 10 + DigitValue(s[|s| - 1])
  }

  /** The decimal rendering of a natural number, without leading zeros. */
  function NatToString(n: nat): (s: string)
    ensures IsDigits(s)
    ensures |s| > 1 ==> s[0] != '0'
  {
    if n < 10 then [DigitChar(n)] else NatToString(n / 10) + [DigitChar(n % 10)]
  }

  /** Reading back a rendered number gives the number. */
  lemma {:induction false} ParseNatToString(n: nat)
    ensures ParseDigits(NatToString(n)) == n
  {
    var s := NatToString(n);
    if n >= 10 {
      ParseNatToString(n / 10);
      assert s[..|s| - 1] == NatToString(n / 10);
    }
  }

  /** A leading zero does not change the value of a digit string. */
  lemma {:induction false} ParseLeadingZero(s: string)
    requires forall i :: 0 <= i < |s| ==> IsDigit(s[i])
    ensures ParseDigits("0" + s) == ParseDigits(s)
    decreases |s|
  {
    if |s| > 0 {
      var z := "0" + s;
      assert z[..|z| - 1] == "0" + s[..|s| - 1];
      ParseLeadingZero(s[..|s| - 1]);
    } else {
      assert ("0" + s)[..0] == "";
    }
  }

  // ---------------------------------------------------------------------
  // Lower-case hex rendering of random bytes (generateToken, user.js:445-447)

  function HexChar(d: nat): (c: char)
    requires d < 16
    ensures IsLowerHex(c)
  {
    if d < 10 then DigitChar(d) else ('a' as int + (d - 10)) as char
  }

  /** The `crypto.randomBytes(32)` behind a session token (user.js:155, 181). */
  type SessionBytes = s: seq<Byte> | |s| == 32 witness seq(32, _ => 0)

  /** The `crypto.randomBytes(16)` behind a password-reset token (user.js:333). */
  type ResetBytes = s: seq<Byte> | |s| == 16 witness seq(16, _ => 0)

  /** `Buffer.toString('hex')`: two lower-case hex digits per byte, high nibble first. */
  function HexEncode(bytes: seq<Byte>): (s: string)
    ensures |s| == 2 * |bytes|
    ensures forall i :: 0 <= i < |s| ==> IsLowerHex(s[i])
    ensures forall k :: 0 <= k < |bytes| ==> s[2 * k] == HexChar(bytes[k] / 16) && s[2 * k + 1] == HexChar(bytes[k] % 16)
  {
    if |bytes| == 0 then ""
    else HexEncode(bytes[..|bytes| - 1]) + [HexChar(bytes[|bytes| - 1] / 16), HexChar(bytes[|bytes| - 1] % 16)]
  }

  /** Different digits render as different characters. */
  lemma {:induction false} HexCharInjective(d: nat, e: nat)
    requires d < 16 && e < 16 && HexChar(d) == HexChar(e)
    ensures d == e
  {
  }

  /** The rendering loses nothing: different bytes give different tokens. */
  lemma {:induction false} HexEncodeInjective(a: seq<Byte>, b: seq<Byte>)
    requires HexEncode(a) == HexEncode(b)
    ensures a == b
  {
    var s := HexEncode(a);
    assert |a| == |b|;
    forall k | 0 <= k < |a|
      ensures a[k] == b[k]
    {
      assert s[2 * k] == HexChar(a[k] / 16) == HexChar(b[k] / 16);
      assert s[2 * k + 1] == HexChar(a[k] % 16) == HexChar(b[k] % 16);
      HexCharInjective(a[k] / 16, b[k] / 16);
      HexCharInjective(a[k] % 16, b[k] % 16);
    }
  }

  // ---------------------------------------------------------------------
  // The field patterns

  /** `/^[a-f0-9]+$/` (token, reset_token) */
  predicate IsHexToken(s: string) { |s| > 0 && forall i :: 0 <= i < |s| ==> IsLowerHex(s[i]) }

  /** `/^[a-zA-Z0-9._-]{5,}$/` */
  predicate IsUsername(s: string) { |s| >= 5 && AllNameChars(s) }

  /** `[\w-]{2,4}` closing the domain of an address. */
  predicate IsTopLabel(s: string) { 2 <= |s| <= 4 && AllLabelChars(s) }

  /** `[\w-]+` followed by a dot, inside the domain of an address. */
  predicate IsLabel(s: string) { |s| > 0 && AllLabelChars(s) }

  /** `([\w-]+\.)+[\w-]{2,4}`: labels contain no dot, so the domain is read by splitting on '.' */
  predicate IsDomain(d: string)
  {
    var labels := Split(d, '.');
    && |labels| >= 2
    && (forall i :: 0 <= i < |labels| - 1 ==> IsLabel(labels[i]))
    && IsTopLabel(labels[|labels| - 1])
  }

  /** `/^[\w-.]+@([\w-]+\.)+[\w-]{2,4}$/`: neither side can hold '@', so there is exactly one. */
  predicate IsEmail(s: string)
  {
    var sides := Split(s, '@');
    |sides| == 2 && |sides[0]| > 0 && AllNameChars(sides[0]) && IsDomain(sides[1])
  }

  /** `/^[0-9]{4}(-[0-9]{1,2}){1,2}$/` */
  predicate IsDate(s: string)
  {
    var parts := Split(s, '-');
    && 2 <= |parts| <= 3
    && |parts[0]| == 4 && IsDigits(parts[0])
    && forall i :: 1 <= i < |parts| ==> IsDigits(parts[i]) && |parts[i]| <= 2
  }

  /** `/^(web)|(mobile)$/`: the alternation splits the anchors, so this is
      "starts with web" OR "ends with mobile". */
  predicate IsLocation(s: string)
  {
    (|s| >= 3 && s[..3] == "web") || (|s| >= 6 && s[|s| - 6..] == "mobile")
  }

  /** The patterns of the regex table, one per kind. */
  datatype Pattern = HexToken | Email | Username | LoginName | Date | Digits | Location

  predicate Accepts(p: Pattern, s: string)
  {
    match p
    case HexToken => IsHexToken(s)
    case Email => IsEmail(s)
    case Username => IsUsername(s)
    case LoginName => IsEmail(s) || IsUsername(s)
    case Date => IsDate(s)
    case Digits => IsDigits(s)
    case Location => IsLocation(s)
  }

  /** The field names that have an entry in the regex table (user.js:50-65). */
  function PatternOf(field: string): (p: Option<Pattern>)
    ensures p.Some? <==> field in {"token", "reset_token", "email", "username", "login", "date", "timespan", "id", "location"}
  {
    if field == "token" || field == "reset_token" then Some(HexToken)
    else if field == "email" then Some(Email)
    else if field == "username" then Some(Username)
    else if field == "login" then Some(LoginName)
    else if field == "date" then Some(Date)
    else if field == "timespan" || field == "id" then Some(Digits)
    else if field == "location" then Some(Location)
    else None
  }

  // ---------------------------------------------------------------------
  // Properties of the patterns

  /** Name characters exclude '@'; label characters exclude '@' and '.'. */
  lemma {:induction false} CharClassesExclude(s: string)
    ensures AllNameChars(s) ==> '@' !in s
    ensures AllLabelChars(s) ==> '@' !in s && '.' !in s
  {
    assert AllNameChars(s) ==> forall k :: 0 <= k < |s| ==> s[k] != '@';
    assert AllLabelChars(s) ==> forall k :: 0 <= k < |s| ==> s[k] != '@' && s[k] != '.';
  }

  /** A join of label-character pieces holds only label characters and the separator. */
  lemma {:induction false} JoinOfLabels(parts: seq<string>, sep: char)
    requires |parts| >= 1
    requires forall i :: 0 <= i < |parts| ==> AllLabelChars(parts[i])
    ensures forall k :: 0 <= k < |Join(parts, sep)| ==> IsLabelChar(Join(parts, sep)[k]) || Join(parts, sep)[k] == sep
    decreases |parts|
  {
    if |parts| > 1 {
      var left := Join(parts[..|parts| - 1], sep);
      var last := parts[|parts| - 1];
      JoinOfLabels(parts[..|parts| - 1], sep);
      var j := Join(parts, sep);
      assert j == left + [sep] + last;
      forall k | 0 <= k < |j|
        ensures IsLabelChar(j[k]) || j[k] == sep
      {
        if k < |left| {
          assert j[k] == left[k];
        } else if k > |left| {
          assert j[k] == last[k - |left| - 1];
        }
      }
    }
  }

  /** Dot-joined labels, the last of 2-4 characters, form a domain. */
  lemma {:induction false} DomainFromLabels(labels: seq<string>)
    requires |labels| >= 2
    requires forall i :: 0 <= i < |labels| - 1 ==> IsLabel(labels[i])
    requires IsTopLabel(labels[|labels| - 1])
    ensures IsDomain(Join(labels, '.'))
    ensures '@' !in Join(labels, '.')
  {
    forall i | 0 <= i < |labels|
      ensures AllLabelChars(labels[i]) && '.' !in labels[i]
    {
      CharClassesExclude(labels[i]);
    }
    SplitJoin(labels, '.');
    JoinWithoutAt(labels);
  }

  lemma {:induction false} JoinWithoutAt(labels: seq<string>)
    requires |labels| >= 1
    requires forall i :: 0 <= i < |labels| ==> AllLabelChars(labels[i])
    ensures '@' !in Join(labels, '.')
  {
    var d := Join(labels, '.');
    JoinOfLabels(labels, '.');
    assert forall k :: 0 <= k < |d| ==> d[k] != '@';
  }

  /** Every address built from a name-char local part and at least two
      labels, the last of 2-4 characters, passes the email pattern. */
  lemma {:induction false} EmailFromParts(local: string, labels: seq<string>)
    requires |local| > 0 && AllNameChars(local)
    requires |labels| >= 2
    requires forall i :: 0 <= i < |labels| - 1 ==> IsLabel(labels[i])
    requires IsTopLabel(labels[|labels| - 1])
    ensures IsEmail(local + "@" + Join(labels, '.'))
  {
    var d := Join(labels, '.');
    DomainFromLabels(labels);
    CharClassesExclude(local);
    SplitAround(local, '@', d);
    SplitWithoutSep(local, '@');
    SplitWithoutSep(d, '@');
    assert local + "@" + d == local + ['@'] + d;
  }

  /** The login pattern is the disjoint union of its two shapes, told apart
      by the presence of '@'. */
  lemma {:induction false} LoginShapes(s: string)
    requires Accepts(LoginName, s)
    ensures IsEmail(s) <==> '@' in s
    ensures IsUsername(s) <==> '@' !in s
  {
    if '@' !in s {
      SplitWithoutSep(s, '@');
    }
    CharClassesExclude(s);
  }

  /** The location pattern accepts both intended values, but also every
      string starting with "web" or ending with "mobile", and nothing else. */
  lemma {:induction false} LocationAcceptsPrefixOrSuffix()
    ensures Accepts(Location, "web") && Accepts(Location, "mobile")
    ensures Accepts(Location, "website") && Accepts(Location, "automobile")
    ensures Accepts(Location, "web desktop mobile")
    ensures !Accepts(Location, "desktop") && !Accepts(Location, "Web") && !Accepts(Location, "")
  {
    assert "web"[..3] == "web";
    assert "mobile"[0..] == "mobile";
    assert "website"[..3] == "web";
    assert "automobile"[4..] == "mobile";
    assert "web desktop mobile"[..3] == "web";
    assert "desktop"[..3] != "web" by { assert "desktop"[0] == 'd'; }
    assert "desktop"[1..] != "mobile" by { assert "desktop"[1] == 'e'; }
    assert "Web"[..3] != "web" by { assert "Web"[0] == 'W'; }
  }

  /** A session or reset token rendered from at least one random byte always
      passes the token pattern. */
  lemma {:induction false} GeneratedTokenIsHex(bytes: seq<Byte>)
    requires |bytes| > 0
    ensures Accepts(HexToken, HexEncode(bytes))
  {
  }
}

=== FILE: reset.dfy ===
/**
 The password-reset flow over the `login_reset` table (user.js:306-357):
 lazy purge of expired rows, token validation, token issue and redemption.
 Time is a parameter in seconds, the resolution of `CURRENT_TIMESTAMP()`.
 */
module ResetTokens {

  import opened Common
  import opened Patterns
  import opened Json
  import opened Fields
  import opened Response
  import opened Sessions

  /** A row of `login_reset`; `created` is the insertion time. */
  datatype ResetRow = ResetRow(userId: nat, token: string, created: int)

  /** `INTERVAL 10 MINUTE`, in seconds. */
  const Lifetime: int := 600

  /** `created < CURRENT_TIMESTAMP() - INTERVAL 10 MINUTE` */
  predicate Expired(row: ResetRow, now: int)
  {
    row.created < now - Lifetime
  }

  /** `deleteExpiredResetTokens()`: keeps exactly the rows that are not
      strictly older than ten minutes, in table order (`PurgeKeepsOrder`). */
  function PurgeExpired(rows: seq<ResetRow>, now: int): (r: seq<ResetRow>)
    ensures forall x :: x in r <==> x in rows && !Expired(x, now)
    ensures |r| <= |rows|
    decreases |rows|
  {
    if |rows| == 0 then []
    else
      var init := PurgeExpired(rows[..|rows| - 1], now);
      var last := rows[|rows| - 1];
      assert forall x :: x in rows <==> x in rows[..|rows| - 1] || x == last by {
        assert rows == rows[..|rows| - 1] + [last];
      }
      if Expired(last, now) then init else init + [last]
  }

  /** The purge works row by row: purging two stretches of the table one
      after the other is purging their concatenation (and a single row is
      kept exactly when it has not expired, `PurgeSingle`). So the survivors
      keep their table order and their multiplicity. */
  lemma {:induction false} PurgeKeepsOrder(a: seq<ResetRow>, b: seq<ResetRow>, now: int)
    ensures PurgeExpired(a + b, now) == PurgeExpired(a, now) + PurgeExpired(b, now)
    decreases |b|
  {
    if |b| == 0 {
      assert a + b == a;
      assert PurgeExpired(b, now) == [];
      assert PurgeExpired(a, now) + [] == PurgeExpired(a, now);
    } else {
      var init := b[..|b| - 1];
      var x := b[|b| - 1];
      assert a + b == (a + init) + [x] && b == init + [x];
      PurgeSnoc(a + init, x, now);
      PurgeSnoc(init, x, now);
      PurgeKeepsOrder(a, init, now);
      AppendAssoc(PurgeExpired(a, now), PurgeExpired(init, now), [x]);
    }
  }

  /** One more row at the end of the table. */
  lemma {:induction false} PurgeSnoc(init: seq<ResetRow>, x: ResetRow, now: int)
    ensures PurgeExpired(init + [x], now) == if Expired(x, now) then PurgeExpired(init, now) else PurgeExpired(init, now) + [x]
  {
    assert (init + [x])[..|init|] == init;
  }

  lemma {:induction false} PurgeSingle(x: ResetRow, now: int)
    ensures PurgeExpired([x], now) == if Expired(x, now) then [] else [x]
  {
    assert [x][..0] == [];
  }



  /** `DELETE FROM login_reset WHERE token=?`: the other rows, in table
      order (`RemoveKeepsOrder`). */
  function RemoveToken(rows: seq<ResetRow>, token: string): (r: seq<ResetRow>)
    ensures forall x :: x in r <==> x in rows && x.token != token
    decreases |rows|
  {
    if |rows| == 0 then []
    else
      var init := RemoveToken(rows[..|rows| - 1], token);
      var last := rows[|rows| - 1];
      assert forall x :: x in rows <==> x in rows[..|rows| - 1] || x == last by {
        assert rows == rows[..|rows| - 1] + [last];
      }
      if last.token == token then init else init + [last]
  }

  /** Deleting works row by row, like the purge (a single row goes exactly
      when it holds the token, `RemoveSingle`): the remaining rows keep
      their table order and their multiplicity. */
  lemma {:induction false} RemoveKeepsOrder(a: seq<ResetRow>, b: seq<ResetRow>, token: string)
    ensures RemoveToken(a + b, token) == RemoveToken(a, token) + RemoveToken(b, token)
    decreases |b|
  {
    if |b| == 0 {
      assert a + b == a;
      assert RemoveToken(b, token) == [];
      assert RemoveToken(a, token) + [] == RemoveToken(a, token);
    } else {
      var init := b[..|b| - 1];
      var x := b[|b| - 1];
      assert a + b == (a + init) + [x] && b == init + [x];
      RemoveSnoc(a + init, x, token);
      RemoveSnoc(init, x, token);
      RemoveKeepsOrder(a, init, token);
      AppendAssoc(RemoveToken(a, token), RemoveToken(init, token), [x]);
    }
  }

  /** One more row at the end of the table. */
  lemma {:induction false} RemoveSnoc(init: seq<ResetRow>, x: ResetRow, token: string)
    ensures RemoveToken(init + [x], token) == if x.token == token then RemoveToken(init, token) else RemoveToken(init, token) + [x]
  {
    assert (init + [x])[..|init|] == init;
  }

  lemma {:induction false} RemoveSingle(x: ResetRow, token: string)
    ensures RemoveToken([x], token) == if x.token == token then [] else [x]
  {
    assert [x][..0] == [];
  }



  /** No row before index `k` holds `token`. */
  predicate NoTokenBefore(rows: seq<ResetRow>, k: nat, token: string)
    requires k <= |rows|
  {
    forall j :: 0 <= j < k ==> rows[j].token != token
  }

  /** `SELECT user_id FROM login_reset WHERE token = ?`, first row. */
  function FindToken(rows: seq<ResetRow>, token: string): (r: Option<ResetRow>)
    ensures r.None? <==> forall x :: x in rows ==> x.token != token
    ensures r.Some? ==> r.value in rows && r.value.token == token
    ensures forall k :: 0 <= k < |rows| && rows[k].token == token && NoTokenBefore(rows, k, token) ==> r == Some(rows[k])
    decreases |rows|
  {
    if |rows| == 0 then None
    else if rows[0].token == token then Some(rows[0])
    else
      var r := FindToken(rows[1..], token);
      assert forall k :: 0 < k < |rows| ==> rows[1..][k - 1] == rows[k];
      assert forall k :: 0 < k < |rows| && NoTokenBefore(rows, k, token) ==> NoTokenBefore(rows[1..], k - 1, token);
      assert forall x :: x in rows <==> x == rows[0] || x in rows[1..] by {
        assert rows == [rows[0]] + rows[1..];
      }
      r
  }

  /** `UPDATE user SET password=? WHERE id=?` */
  function SetPassword(users: seq<UserRow>, id: nat, digest: string): seq<UserRow>
  {
    seq(|users|, i requires 0 <= i < |users| => if users[i].id == id then users[i].(password := digest) else users[i])
  }

  const ValidateFieldList: seq<string> := ["token"]
  const GenerateFieldList: seq<string> := ["user"]
  const ResetFieldList: seq<string> := ["password", "token"]

  /** `validateResetToken()`: invalid fields leave the table alone; otherwise
      expired rows are purged and the answer is whether a row with the token
      survives. */
  function ValidateResetToken(body: Body, rows: seq<ResetRow>, now: int): (r: (Ret, seq<ResetRow>))
    ensures r.0.False? || r.0.True?
    ensures ValidateFields(body, ValidateFieldList).None? ==> r.0.False? && r.1 == rows
    ensures ValidateFields(body, ValidateFieldList).Some? ==>
      && (forall x :: x in r.1 <==> x in rows && !Expired(x, now))
      && (r.0.True? <==> exists x :: x in rows && !Expired(x, now) && x.token == Text(body["token"]))
  {
    match ValidateFields(body, ValidateFieldList)
    case None => (False, rows)
    case Some(post) =>
      assert "token" in post;
      var kept := PurgeExpired(rows, now);
      if FindToken(kept, Text(post["token"])).Some? then (True, kept) else (False, kept)
  }

  /** The out-of-band message `generateResetToken` sends (without the
      `email_token` digest, which is outside this model). */
  datatype Notice = Notice(username: string, email: string, token: string)

  /** `generateResetToken()`: invalid fields do nothing; otherwise expired
      rows are purged, and a known user gets a row with the token rendered
      from 16 random bytes, created now, and a notice carrying that token. */
  function GenerateResetToken(body: Body, users: seq<UserRow>, rows: seq<ResetRow>, now: int, random: ResetBytes):
    (r: (Ret, seq<ResetRow>, Option<Notice>))
    ensures r.0.False? || r.0.True?
    ensures ValidateFields(body, GenerateFieldList).None? ==> r.0.False? && r.1 == rows && r.2.None?
    ensures ValidateFields(body, GenerateFieldList).Some? ==>
      var user := FindByName(users, body["user"]);
      && (r.0.True? <==> user.Some?)
      && (r.0.False? ==> r.1 == PurgeExpired(rows, now) && r.2.None?)
      && (r.0.True? ==>
            && r.1 == PurgeExpired(rows, now) + [ResetRow(user.value.id, HexEncode(random), now)]
            && r.2 == Some(Notice(user.value.username, user.value.email, HexEncode(random))))
  {
    match ValidateFields(body, GenerateFieldList)
    case None => (False, rows, None)
    case Some(post) =>
      assert "user" in post;
      var kept := PurgeExpired(rows, now);
      match FindByName(users, post["user"])
      case None => (False, kept, None)
      case Some(u) =>
        var token := HexEncode(random);
        (True, kept + [ResetRow(u.id, token, now)], Some(Notice(u.username, u.email, token)))
  }

  /** `resetPassword()`: with valid fields and a row holding the token, the
      owner's password becomes `digest` and every row with the token is
      deleted. There is no purge first, so the row's age is not checked. A
      password that cannot be hashed rejects before either write. */
  function ResetPassword(body: Body, users: seq<UserRow>, rows: seq<ResetRow>, digest: string):
    (r: (Ret, seq<UserRow>, seq<ResetRow>))
    ensures r.0.False? || r.0.True? || r.0.Rejected?
    ensures !r.0.True? ==> r.1 == users && r.2 == rows
    ensures r.0.False? <==> ValidateFields(body, ResetFieldList).None? || forall x :: x in rows ==> x.token != Text(body["token"])
    ensures r.0.True? <==>
      && ValidateFields(body, ResetFieldList).Some?
      && (exists x :: x in rows && x.token == Text(body["token"]))
      && Hashable(body["password"])
    ensures r.0.True? ==>
      var token := Text(body["token"]);
      var owner := FindToken(rows, token).value.userId;
      && (forall x :: x in r.2 <==> x in rows && x.token != token)
      && |r.1| == |users|
      && (forall i :: 0 <= i < |users| && users[i].id == owner ==> r.1[i] == users[i].(password := digest))
      && (forall i :: 0 <= i < |users| && users[i].id != owner ==> r.1[i] == users[i])
  {
    match ValidateFields(body, ResetFieldList)
    case None => (False, users, rows)
    case Some(post) =>
      assert "token" in post;
      var token := Text(post["token"]);
      match FindToken(rows, token)
      case None => (False, users, rows)
      case Some(row) =>
        if !Hashable(post["password"]) then (Rejected, users, rows)
        else (True, SetPassword(users, row.userId, digest), RemoveToken(rows, token))
  }

  /** A token issued at time `t` validates exactly while `now <= t + 600`:
      a row exactly ten minutes old still counts, one second later it is
      purged. */
  lemma {:induction false} ValidWithinTenMinutes(body: Body, rows: seq<ResetRow>, t: int, now: int)
    requires ValidateFields(body, ValidateFieldList).Some?
    requires exists x :: x in rows && x.token == Text(body["token"])
    requires forall x :: x in rows && x.token == Text(body["token"]) ==> x.created == t
    ensures ValidateResetToken(body, rows, now).0.True? <==> now <= t + Lifetime
    ensures now > t + Lifetime ==>
      forall x :: x in ValidateResetToken(body, rows, now).1 ==> x.token != Text(body["token"])
  {
  }

  /** Redemption does not look at the age of the row: a token whose every
      row has expired fails validation, yet still resets the password. */
  lemma {:induction false} ExpiredTokenStillRedeemed(body: Body, users: seq<UserRow>, rows: seq<ResetRow>, digest: string, now: int)
    requires ValidateFields(body, ResetFieldList).Some?
    requires ValidateFields(body, ValidateFieldList).Some?
    requires exists x :: x in rows && x.token == Text(body["token"])
    requires forall x :: x in rows && x.token == Text(body["token"]) ==> Expired(x, now)
    requires "password" in body && Hashable(body["password"])
    ensures ValidateResetToken(body, rows, now).0.False?
    ensures ResetPassword(body, users, rows, digest).0.True?
  {
  }

  /** A body holding just a well-formed token passes the field list of `validateResetToken`. */
  lemma {:induction false} TokenBodyValid(token: string)
    requires IsHexToken(token)
    ensures ValidateFields(map["token" := Str(token)], ValidateFieldList).Some?
  {
    var body := map["token" := Str(token)];
    assert PatternOf("token") == Some(HexToken);
    assert FieldValid(body, "token");
    assert forall i :: 0 <= i < |ValidateFieldList| ==> FieldValid(body, ValidateFieldList[i]);
  }

  /** The row a successful `generateResetToken` appends: it carries the
      rendered random token and the current time. */
  lemma {:induction false} IssuedRow(body: Body, users: seq<UserRow>, rows: seq<ResetRow>, now: int, random: ResetBytes) returns (row: ResetRow)
    requires GenerateResetToken(body, users, rows, now, random).0.True?
    ensures row in GenerateResetToken(body, users, rows, now, random).1
    ensures row.token == HexEncode(random) && row.created == now
  {
    assert ValidateFields(body, GenerateFieldList).Some?;
    row := ResetRow(FindByName(users, body["user"]).value.id, HexEncode(random), now);
    assert GenerateResetToken(body, users, rows, now, random).1 == PurgeExpired(rows, now) + [row];
  }

  /** A token rendered from random bytes, held by a row of the table, passes
      `validateResetToken` until ten minutes after the row was created. */
  lemma {:induction false} IssuedTokenValidates(rows: seq<ResetRow>, row: ResetRow, random: ResetBytes, now: int)
    requires row in rows && row.token == HexEncode(random)
    requires now <= row.created + Lifetime
    ensures ValidateResetToken(map["token" := Str(HexEncode(random))], rows, now).0.True?
  {
    GeneratedTokenIsHex(random);
    TokenBodyValid(HexEncode(random));
  }
}

=== FILE: response.dfy ===
/**
 The per-request response sink of `User.respond`, `respondSuccess` and
 `respondMissing` (user.js:451-464), and the JavaScript values the `User`
 operations hand back to the route handlers.
 */
module Response {

  import opened Common
  import opened Json

  /** The non-standard part of a JSON reply body. */
  datatype Data =
    | NoData
    | TokenData(token: string)
    | TablesData(tables: seq<string>)
    | TableData(headers: Option<seq<string>>, rows: seq<seq<Value>>)
    | MusclesData(scores: map<string, int>)

  /** One `res.status(status).json({success, reason?, ...data})` write. */
  datatype Reply = Reply(status: int, success: bool, reason: Option<string>, data: Data)

  /** The response object together with the `alreadyResponded` flag: the
      flag is set exactly when a reply has been written. */
  datatype Sink = Sink(written: Option<Reply>)
  {
    predicate AlreadyResponded() { written.Some? }
  }

  const FreshSink := Sink(None)

  const MissingFields := "Missing or invalid POST field(s)"
  const InvalidToken := "Invalid token"
  const Unauthorized := "Unauthorized"

  /** Every reply the sink writes carries `success` exactly when its status is 200. */
  predicate Consistent(sink: Sink)
  {
    sink.written.Some? ==> (sink.written.value.success <==> sink.written.value.status == 200)
  }

  /** `respond(code, json)`: sets `success` from the status and writes only
      if nothing has been written yet. */
  function Respond(sink: Sink, status: int, reason: Option<string>, data: Data): (r: Sink)
    ensures r.AlreadyResponded()
    ensures sink.AlreadyResponded() ==> r == sink
    ensures !sink.AlreadyResponded() ==>
      && r.written.value.status == status
      && r.written.value.reason == reason
      && r.written.value.data == data
    ensures Consistent(sink) ==> Consistent(r)
  {
    if sink.AlreadyResponded() then sink
    else Sink(Some(Reply(status, status == 200, reason, data)))
  }

  /** `respondSuccess(json)` */
  function RespondSuccess(sink: Sink, data: Data): Sink
  {
    Respond(sink, 200, None, data)
  }

  /** `respondMissing()` */
  function RespondMissing(sink: Sink): Sink
  {
    Respond(sink, 400, Some(MissingFields), NoData)
  }

  /** One call of `respond` in a sequence of attempts. */
  datatype Attempt = Attempt(status: int, reason: Option<string>, data: Data)

  function RespondAll(sink: Sink, attempts: seq<Attempt>): Sink
    decreases |attempts|
  {
    if |attempts| == 0 then sink
    else RespondAll(Respond(sink, attempts[0].status, attempts[0].reason, attempts[0].data), attempts[1..])
  }

  /** However many times a request tries to respond, exactly the first
      attempt is written, with `success` set iff its status is 200; a sink
      that was already written is never changed. */
  lemma {:induction false} FirstRespondWins(sink: Sink, attempts: seq<Attempt>)
    ensures sink.AlreadyResponded() ==> RespondAll(sink, attempts) == sink
    ensures !sink.AlreadyResponded() && |attempts| > 0 ==>
      RespondAll(sink, attempts).written ==
        Some(Reply(attempts[0].status, attempts[0].status == 200, attempts[0].reason, attempts[0].data))
    decreases |attempts|
  {
    if |attempts| > 0 {
      var next := Respond(sink, attempts[0].status, attempts[0].reason, attempts[0].data);
      FirstRespondWins(next, attempts[1..]);
    }
  }

  /** The value a `User` operation resolves to, as the handlers test it with
      `=== false`, `=== 0` and `=== 1`; `Rejected` is a promise that rejects
      (a thrown error or a failed awaited query), after which the handler
      writes nothing. */
  datatype Ret =
    | False
    | Zero
    | One
    | True
    | TokenRet(token: string)
    | TablesRet(tables: seq<string>)
    | DataRet(headers: Option<seq<string>>, rows: seq<seq<Value>>)
    | Rejected
}

=== FILE: sessions.dfy ===
/**
 The `user` and `login` tables and the session operations over them:
 `updateToken` (user.js:180-189), `login` (user.js:143-162) and `register`
 (user.js:164-178). Tables are sequences of rows in store order; the
 queries a method issues run one after another in the order issued.
 */
module Sessions {

  import opened Common
  import opened Patterns
  import opened Json
  import opened Fields
  import opened Response

  /** A row of the `user` table; `isAdmin` is the raw column, truthy when non-zero. */
  datatype UserRow = UserRow(id: nat, username: string, email: string, password: string, isAdmin: int)

  /** A row of the `login` table: one session token of one user on one client location. */
  datatype LoginRow = LoginRow(location: string, userId: nat, token: string)

  predicate InSlot(row: LoginRow, location: string, id: nat)
  {
    row.location == location && row.userId == id
  }

  /** The rows inside (`inSlot`) or outside the `(location, id)` slot, in table order. */
  function SlotRows(rows: seq<LoginRow>, location: string, id: nat, inSlot: bool): (r: seq<LoginRow>)
    ensures forall x :: x in r <==> x in rows && InSlot(x, location, id) == inSlot
    ensures |r| <= |rows|
    decreases |rows|
  {
    if |rows| == 0 then []
    else
      var init := SlotRows(rows[..|rows| - 1], location, id, inSlot);
      var last := rows[|rows| - 1];
      assert forall x :: x in rows <==> x in rows[..|rows| - 1] || x == last by {
        assert rows == rows[..|rows| - 1] + [last];
      }
      if InSlot(last, location, id) == inSlot then init + [last] else init
  }

  lemma {:induction false} SlotRowsAppend(a: seq<LoginRow>, b: seq<LoginRow>, location: string, id: nat, inSlot: bool)
    ensures SlotRows(a + b, location, id, inSlot) == SlotRows(a, location, id, inSlot) + SlotRows(b, location, id, inSlot)
    decreases |b|
  {
    if |b| == 0 {
      assert a + b == a;
    } else {
      var b' := b[..|b| - 1];
      assert (a + b)[..|a + b| - 1] == a + b';
      SlotRowsAppend(a, b', location, id, inSlot);
    }
  }

  lemma {:induction false} SlotRowsFiltered(rows: seq<LoginRow>, location: string, id: nat, inSlot: bool)
    ensures SlotRows(SlotRows(rows, location, id, inSlot), location, id, inSlot) == SlotRows(rows, location, id, inSlot)
    ensures SlotRows(SlotRows(rows, location, id, inSlot), location, id, !inSlot) == []
    decreases |rows|
  {
    if |rows| > 0 {
      var init := rows[..|rows| - 1];
      SlotRowsFiltered(init, location, id, inSlot);
      var f := SlotRows(init, location, id, inSlot);
      if InSlot(rows[|rows| - 1], location, id) == inSlot {
        SlotRowsAppend(f, [rows[|rows| - 1]], location, id, inSlot);
        SlotRowsAppend(f, [rows[|rows| - 1]], location, id, !inSlot);
      }
    }
  }

  /** `DELETE FROM login WHERE location=? AND user_id=?` */
  function DeleteSlot(rows: seq<LoginRow>, location: string, id: nat): seq<LoginRow>
  {
    SlotRows(rows, location, id, false)
  }

  /** `DELETE` then `INSERT` into the slot, with token `HexEncode(random)`,
      the rendering of `crypto.randomBytes(32)`. */
  function UpdateToken(rows: seq<LoginRow>, id: nat, location: string, random: SessionBytes): (r: (string, seq<LoginRow>))
    ensures r.0 == HexEncode(random)
    ensures SlotRows(r.1, location, id, true) == [LoginRow(location, id, r.0)]
    ensures SlotRows(r.1, location, id, false) == SlotRows(rows, location, id, false)
  {
    var token := HexEncode(random);
    var kept := DeleteSlot(rows, location, id);
    var row := LoginRow(location, id, token);
    SlotRowsAppend(kept, [row], location, id, true);
    SlotRowsAppend(kept, [row], location, id, false);
    SlotRowsFiltered(rows, location, id, false);
    (token, kept + [row])
  }

  /** `SELECT user_id FROM login WHERE token = ?`, first row. */
  function ResolveToken(rows: seq<LoginRow>, token: string): (r: Option<nat>)
    ensures r.None? <==> forall i :: 0 <= i < |rows| ==> rows[i].token != token
    ensures r.Some? ==> exists i :: 0 <= i < |rows| && rows[i].token == token && rows[i].userId == r.value
    decreases |rows|
  {
    if |rows| == 0 then None
    else if rows[0].token == token then Some(rows[0].userId)
    else
      var r := ResolveToken(rows[1..], token);
      assert forall i :: 1 <= i < |rows| ==> rows[i] == rows[1..][i - 1];
      r
  }

  /** A token not yet in the table resolves, after it is issued, to its user. */
  lemma {:induction false} IssuedTokenResolves(rows: seq<LoginRow>, id: nat, location: string, random: SessionBytes)
    requires forall i :: 0 <= i < |rows| ==> rows[i].token != HexEncode(random)
    ensures ResolveToken(UpdateToken(rows, id, location, random).1, HexEncode(random)) == Some(id)
  {
    var after := UpdateToken(rows, id, location, random).1;
    var t := HexEncode(random);
    var i :| 0 <= i < |after| && after[i].token == t && after[i].userId == ResolveToken(after, t).value;
    assert forall x :: x in after && !InSlot(x, location, id) ==> x in rows;
    assert after[i] in after;
    assert InSlot(after[i], location, id);
    assert after[i] in SlotRows(after, location, id, true);
  }

  /** Issuing a second token for the same slot revokes the first: the old
      token no longer resolves to anybody. */
  lemma {:induction false} ReissueRevokes(rows: seq<LoginRow>, id: nat, location: string, first: SessionBytes, second: SessionBytes)
    requires forall i :: 0 <= i < |rows| ==> rows[i].token != HexEncode(first)
    requires HexEncode(first) != HexEncode(second)
    ensures var once := UpdateToken(rows, id, location, first).1;
            ResolveToken(UpdateToken(once, id, location, second).1, HexEncode(first)).None?
  {
    var once := UpdateToken(rows, id, location, first).1;
    var twice := UpdateToken(once, id, location, second).1;
    var t := HexEncode(first);
    forall i | 0 <= i < |twice|
      ensures twice[i].token != t
    {
      var x := twice[i];
      assert x in twice;
      if InSlot(x, location, id) {
        assert x in SlotRows(twice, location, id, true);
      } else {
        assert x in SlotRows(once, location, id, false);
        assert x in SlotRows(rows, location, id, false);
      }
    }
  }

  // ---------------------------------------------------------------------
  // The user table

  predicate NameMatches(u: UserRow, name: string)
  {
    u.username == name || u.email == name
  }

  /** `SELECT ... FROM user WHERE username = ? OR email = ?`, first row;
      a lookup value that is not text or a number matches nothing. */
  function FindByName(users: seq<UserRow>, name: Value): (r: Option<UserRow>)
    ensures r.None? <==> !(name.Str? || name.Num?) || forall i :: 0 <= i < |users| ==> !NameMatches(users[i], Text(name))
    ensures r.Some? ==> r.value in users && NameMatches(r.value, Text(name))
    decreases |users|
  {
    if !(name.Str? || name.Num?) || |users| == 0 then None
    else if NameMatches(users[0], Text(name)) then Some(users[0])
    else
      var r := FindByName(users[1..], name);
      assert forall i :: 1 <= i < |users| ==> users[i] == users[1..][i - 1];
      r
  }

  /** `SELECT ... FROM user WHERE id = ?`, first row. */
  function FindById(users: seq<UserRow>, id: nat): (r: Option<UserRow>)
    ensures r.None? <==> forall i :: 0 <= i < |users| ==> users[i].id != id
    ensures r.Some? ==> r.value in users && r.value.id == id
    decreases |users|
  {
    if |users| == 0 then None
    else if users[0].id == id then Some(users[0])
    else
      var r := FindById(users[1..], id);
      assert forall i :: 1 <= i < |users| ==> users[i] == users[1..][i - 1];
      r
  }

  // ---------------------------------------------------------------------
  // login and register

  const LoginFields: seq<string> := ["user", "password", "location"]
  const RegisterFields: seq<string> := ["username", "email", "password", "location"]

  /** The password check of `login`: `bcrypt.compare` through the abstract
      `verify`; a non-text password makes bcrypt fail, which the source
      treats as a mismatch. */
  /** `bcrypt.hash` takes text only: any other password makes
      `generateHash` fail, and its `catch` handler itself throws (it calls an
      undefined `log`), so the operation's promise rejects. */
  predicate Hashable(password: Value) { password.Str? }

  predicate PasswordAccepted(password: Value, digest: string, verify: (string, string) -> bool)
  {
    password.Str? && verify(password.s, digest)
  }

  /** The session writes of `login`: an inline delete and insert with a
      first token, then `updateToken` with a second one. The first token
      leaves no trace: the table is the one a single `updateToken` makes. */
  function SignIn(logins: seq<LoginRow>, id: nat, location: string, first: SessionBytes, second: SessionBytes):
    (r: (string, seq<LoginRow>))
    ensures r == UpdateToken(logins, id, location, second)
  {
    var kept := DeleteSlot(logins, location, id);
    var row := LoginRow(location, id, HexEncode(first));
    SlotRowsAppend(kept, [row], location, id, false);
    SlotRowsFiltered(logins, location, id, false);
    assert DeleteSlot(kept + [row], location, id) == kept;
    UpdateToken(kept + [row], id, location, second)
  }

  /** `login()`: `false` on invalid fields, `0` on an unknown user or a wrong
      password, otherwise the token of a fresh session for the user's slot;
      the second of the two tokens `login` issues is the one returned. */
  function Login(body: Body, users: seq<UserRow>, logins: seq<LoginRow>, verify: (string, string) -> bool,
                 first: SessionBytes, second: SessionBytes): (r: (Ret, seq<LoginRow>))
    ensures r.0.False? || r.0.Zero? || r.0.TokenRet?
    ensures r.0.False? <==> ValidateFields(body, LoginFields).None?
    ensures !r.0.TokenRet? ==> r.1 == logins
    ensures ValidateFields(body, LoginFields).Some? ==>
      var user := FindByName(users, body["user"]);
      && (r.0.TokenRet? <==> user.Some? && PasswordAccepted(body["password"], user.value.password, verify))
      && (r.0.TokenRet? ==>
            var issued := UpdateToken(logins, user.value.id, Text(body["location"]), second);
            r.0.token == issued.0 && r.1 == issued.1)
  {
    match ValidateFields(body, LoginFields)
    case None => (False, logins)
    case Some(post) =>
      ValidatedField(body, LoginFields, 0);
      ValidatedField(body, LoginFields, 1);
      ValidatedField(body, LoginFields, 2);
      match FindByName(users, post["user"])
      case None => (Zero, logins)
      case Some(u) =>
        if !PasswordAccepted(post["password"], u.password, verify) then (Zero, logins)
        else
          var issued := SignIn(logins, u.id, Text(post["location"]), first, second);
          (TokenRet(issued.0), issued.1)
  }

  /** `register()`: `false` on invalid fields, `0` when the username or the
      email is taken, a rejection when the password cannot be hashed,
      otherwise a new user row (with the externally computed `digest` of the
      password) and the token of its first session. */
  function Register(body: Body, users: seq<UserRow>, logins: seq<LoginRow>, id: nat, digest: string, random: SessionBytes):
    (r: (Ret, seq<UserRow>, seq<LoginRow>))
    requires forall i :: 0 <= i < |users| ==> users[i].id != id
    ensures r.0.False? || r.0.Zero? || r.0.Rejected? || r.0.TokenRet?
    ensures r.0.False? <==> ValidateFields(body, RegisterFields).None?
    ensures !r.0.TokenRet? ==> r.1 == users && r.2 == logins
    ensures ValidateFields(body, RegisterFields).Some? ==>
      var username := Text(body["username"]);
      var email := Text(body["email"]);
      && (r.0.Zero? <==> exists i :: 0 <= i < |users| && (users[i].username == username || users[i].email == email))
      && (r.0.Rejected? <==> !r.0.Zero? && !Hashable(body["password"]))
      && (r.0.TokenRet? ==>
            && r.1 == users + [UserRow(id, username, email, digest, 0)]
            && var issued := UpdateToken(logins, id, Text(body["location"]), random);
               r.0.token == issued.0 && r.2 == issued.1)
  {
    match ValidateFields(body, RegisterFields)
    case None => (False, users, logins)
    case Some(post) =>
      ValidatedField(body, RegisterFields, 0);
      ValidatedField(body, RegisterFields, 1);
      ValidatedField(body, RegisterFields, 2);
      ValidatedField(body, RegisterFields, 3);
      var username := Text(post["username"]);
      var email := Text(post["email"]);
      if exists i :: 0 <= i < |users| && (users[i].username == username || users[i].email == email) then
        (Zero, users, logins)
      else if !Hashable(post["password"]) then
        (Rejected, users, logins)
      else
        var issued := UpdateToken(logins, id, Text(post["location"]), random);
        (TokenRet(issued.0), users + [UserRow(id, username, email, digest, 0)], issued.1)
  }

  /** A user appended behind rows that do not answer to `name` is the one found by it. */
  lemma {:induction false} AppendedUserFound(users: seq<UserRow>, row: UserRow, name: Value)
    requires name.Str? || name.Num?
    requires forall i :: 0 <= i < |users| ==> !NameMatches(users[i], Text(name))
    requires NameMatches(row, Text(name))
    ensures FindByName(users + [row], name) == Some(row)
    decreases |users|
  {
    if |users| > 0 {
      assert (users + [row])[1..] == users[1..] + [row];
      AppendedUserFound(users[1..], row, name);
    }
  }

  /** A field keeps its validity in another body holding the same value. */
  lemma {:induction false} FieldCarries(from: Body, to: Body, field: string)
    requires FieldValid(from, field)
    requires field in to && to[field] == from[field]
    ensures FieldValid(to, field)
  {
  }

  /** A login body carrying the registration's username and location (and
      any password) passes the login field list. */
  lemma {:induction false} LoginBodyFromRegistration(body: Body, loginBody: Body)
    requires ValidateFields(body, RegisterFields).Some?
    requires "username" in body && "location" in body
    requires "user" in loginBody && "password" in loginBody && "location" in loginBody
    requires loginBody["user"] == body["username"] && loginBody["location"] == body["location"]
    ensures ValidateFields(loginBody, LoginFields).Some?
  {
    assert FieldValid(body, RegisterFields[3]);
    FieldCarries(body, loginBody, "location");
    assert FieldValid(loginBody, "user") by { assert PatternOf("user").None?; }
    assert FieldValid(loginBody, "password") by { assert PatternOf("password").None?; }
    ThreeFieldsValid(loginBody, "user", "password", "location");
  }

  /** After a successful registration the new row is the one the login
      lookup finds by username, provided no older row has that name as its
      email. */
  lemma {:induction false} RegisteredUserFound(body: Body, users: seq<UserRow>, logins: seq<LoginRow>, id: nat, digest: string, random: SessionBytes)
    requires forall i :: 0 <= i < |users| ==> users[i].id != id
    requires Register(body, users, logins, id, digest, random).0.TokenRet?
    requires "username" in body && "email" in body
    requires forall i :: 0 <= i < |users| ==> users[i].email != Text(body["username"])
    ensures FindByName(Register(body, users, logins, id, digest, random).1, body["username"])
              == Some(UserRow(id, Text(body["username"]), Text(body["email"]), digest, 0))
  {
    var username := Text(body["username"]);
    var newRow := UserRow(id, username, Text(body["email"]), digest, 0);
    assert ValidateFields(body, RegisterFields).Some?;
    assert FieldValid(body, RegisterFields[0]);
    UsernameIsText(body);
    assert Register(body, users, logins, id, digest, random).1 == users + [newRow];
    assert forall i :: 0 <= i < |users| ==> !NameMatches(users[i], username);
    AppendedUserFound(users, newRow, body["username"]);
  }

  /** A value that passes the username pattern is text or a number. */
  lemma {:induction false} UsernameIsText(body: Body)
    requires FieldValid(body, "username")
    ensures body["username"].Str? || body["username"].Num?
  {
    var v := body["username"];
    assert Accepts(Username, Text(v));
    if v.Obj? {
      ObjectFailsEveryPattern(v.entries, Username);
    }
  }

  /** Login with valid fields, a known user and an accepted password issues
      the session `updateToken` would. */
  lemma {:induction false} LoginSucceeds(body: Body, users: seq<UserRow>, logins: seq<LoginRow>, verify: (string, string) -> bool,
                                         first: SessionBytes, second: SessionBytes, u: UserRow)
    requires ValidateFields(body, LoginFields).Some?
    requires "user" in body && "password" in body && "location" in body
    requires FindByName(users, body["user"]) == Some(u)
    requires PasswordAccepted(body["password"], u.password, verify)
    ensures var issued := UpdateToken(logins, u.id, Text(body["location"]), second);
            Login(body, users, logins, verify, first, second) == (TokenRet(issued.0), issued.1)
  {
  }

  /** A freshly registered user can log in with the same username and
      password on the same location, and the new session resolves to the new
      user id. */
  lemma {:induction false} RegisteredUserCanLogIn(body: Body, users: seq<UserRow>, logins: seq<LoginRow>, id: nat, digest: string, random: SessionBytes,
                               loginBody: Body, verify: (string, string) -> bool, first: SessionBytes, second: SessionBytes)
    requires forall i :: 0 <= i < |users| ==> users[i].id != id
    requires Register(body, users, logins, id, digest, random).0.TokenRet?
    requires "username" in body && "email" in body && "location" in body
    requires "user" in loginBody && "password" in loginBody && "location" in loginBody
    requires loginBody["user"] == body["username"] && loginBody["location"] == body["location"]
    requires loginBody["password"].Str? && verify(loginBody["password"].s, digest)
    requires forall i :: 0 <= i < |users| ==> users[i].email != Text(body["username"])
    ensures var reg := Register(body, users, logins, id, digest, random);
            var signedIn := Login(loginBody, reg.1, reg.2, verify, first, second);
            && signedIn.0.TokenRet?
            && ((forall i :: 0 <= i < |reg.2| ==> reg.2[i].token != signedIn.0.token) ==>
                  ResolveToken(signedIn.1, signedIn.0.token) == Some(id))
  {
    var reg := Register(body, users, logins, id, digest, random);
    var newRow := UserRow(id, Text(body["username"]), Text(body["email"]), digest, 0);
    LoginBodyFromRegistration(body, loginBody);
    RegisteredUserFound(body, users, logins, id, digest, random);
    LoginSucceeds(loginBody, reg.1, reg.2, verify, first, second, newRow);
    var issued := UpdateToken(reg.2, newRow.id, Text(body["location"]), second);
    if forall i :: 0 <= i < |reg.2| ==> reg.2[i].token != issued.0 {
      IssuedTokenResolves(reg.2, newRow.id, Text(body["location"]), second);
    }
  }
}
